=== FILE: README.md ===
# Restricted-channel forwarder, modelled in Dafny

`userbot.py` is a Telegram user bot. The operator sends it `/forward <link>` or
`/batch <first-link> <last-link>`. For each message the link names, the bot
fetches it from a private channel and re-posts it to the operator's Saved
Messages as a new message: text directly, media by downloading the file and
uploading it again. Between messages of a batch it pauses to stay under the
service's rate limits.

This project models the three pieces of that pipeline as pure functions and
proves what they do:

- `Link` models `parse_message_link`. It turns the path of a
  `https://t.me/c/<channel>/<message>` link into a `Locator` (channel id,
  message id), or into the `ValueError` the code raises.
  - `Paths` models the `strip('/')` and `split('/')` it relies on.
  - `Numerals` models the subset of `int()` it relies on.
- `Dispatch` models `process_and_forward`. The chat client is replaced by a
  `Remote` record: it says what each client call returns or raises for one
  (chat, message) pair. The result is an `Outcome`:
  - the trace of actions attempted, in order (`Trace.Action`);
  - the exception that escapes the function, if any.
- `Commands` models the two command handlers `cmd_single_forward` and
  `cmd_batch_forward`, as functions from the command's words and a `World` to
  the trace of actions including the replies to the operator. The `World`
  holds how `urlparse` reduces a link to its path (or refuses it) and the `Remote` of every
  (chat, message) pair.
  - The batch loop is a recursive function, `SweepFrom`.
  - It is also a `while` loop, `BatchLoop`, proved to compute the same result.
  - Pauses are recorded as `Pace(tenths)` actions, in tenths of a second.
  - A FloodWait sleep is recorded as `Backoff(seconds)`.

Text the bot posts is kept as structured values (`Notice`, `ReplyKind`).
`Trace.NoticeText` and `Trace.ReplyText` render them as the exact strings of
the source.

Behaviour of `userbot.py` worth knowing, all of it modelled as written:

- A two-segment link with a channel handle in place of `c` is rejected; only
  `c/<channel>/<message>` is accepted.
- A message id may be zero or negative (`int()` accepts a sign); nothing demands
  an id of at least 1.
- Reversed batch bounds are not swapped. `range` is then empty and the batch
  reports 0 messages processed.
- A FloodWait is slept through and the message is not retried.
- Removing the downloaded file is not guaranteed. It happens only when the
  upload step completes without raising.
- An unsupported media kind is still downloaded. Only the upload is skipped,
  with a notice.
- A caption sends a message down the text branch. Media with a caption is
  therefore relayed as its caption text, and the media is not sent.
- There is no audio upload and no `/status` command.

## Model

| member | source | states |
|---|---|---|
| `Link.ParseLink` | userbot.py:35-49 | the parser over the URL path; any accepted link has a channel id of at most -100 |
| `Link.ParseMessageLink` | userbot.py:35-41 | `parse_message_link` including `urlparse`: a ValueError of `urlparse` passes through with its text; otherwise the link parses exactly when its path does, to the same locator, and a rejected path fails with the parser's error text |
| `Link.ParseAccepts` | userbot.py:37-49 | every path `c/<digits>/<integer literal>`, with any slashes around it, is accepted, with channel `ChannelId(digits)` and the literal's integer value as message |
| `Link.ParseAcceptsOnly` | userbot.py:37-44 | conversely, every accepted path strips to `c/<digits>/<integer literal>`, and the locator is read from those two segments |
| `Link.AcceptedSegments` | userbot.py:38-47 | an accepted path splits into exactly three segments, the first `c`, the second digits, the third an integer literal |
| `Link.RejectsSegmentCount` | userbot.py:38-41 | a stripped path with other than two slashes gives the "Invalid Telegram link format" error |
| `Link.RejectsFirstSegment` | userbot.py:40-41 | three segments whose first is not `c` give the "Invalid Telegram link format" error, whatever the other two hold |
| `Link.RejectsHandleLink` | userbot.py:40-41 | a link naming the channel by handle, `/s/chan/5`, gives the "Invalid Telegram link format" error |
| `Link.RejectsMessageLiteral` | userbot.py:40-44 | a non-integer message segment is reported as the bad `int()` literal, even when the channel segment is bad too, because the message is parsed first |
| `Link.RejectsChannelLiteral` | userbot.py:43-47 | a valid message behind a non-digit channel segment reports the `-100`-prefixed literal |
| `Link.ChannelLiteralValue` | userbot.py:46-47 | `int("-100" + s)` succeeds exactly when s is a digit string, and then equals -(100·10^len(s) + value(s)) |
| `Link.ChannelIdInjective` | userbot.py:46-47 | two digit segments give the same channel id if and only if they are equal, leading zeros included |
| `Link.LinkPathRoundTrip` | userbot.py:35-49 | parsing `/c/<digits>/<str(m)>` gives back `ChannelId(digits)` and m, for every integer m |
| `Link.EmptyChannelSegment` | userbot.py:43-47 | `/c//5` is accepted as channel -100, message 5 |
| `Link.DocumentedExample` | userbot.py:36 | `/c/111111111/123` gives channel -100111111111 and message 123 |
| `Paths.Strip` | userbot.py:38 | `strip('/')` leaves a result that neither starts nor ends with a slash |
| `Paths.StripWrapped` | userbot.py:38 | `strip('/')` removes exactly the slashes around a path that has none at its edges |
| `Paths.Split` | userbot.py:38 | `split('/')` gives one more piece than there are slashes, no piece holds a slash, and joining the pieces with `/` gives the input back |
| `Paths.SplitJoin` | userbot.py:38 | splitting pieces that hold no slash, once they are joined with `/`, gives exactly those pieces |
| `Numerals.ParseInt` | userbot.py:44 | `int(s)` succeeds exactly on an optional sign followed by one or more ASCII digits, and a leading minus gives a non-positive value |
| `Numerals.ParseIntPlus` | userbot.py:44 | `int("+" + d)` equals `int(d)` for every digit string d |
| `Numerals.ParseIntMinus` | userbot.py:44 | `int("-" + d)` equals `-int(d)` for every digit string d |
| `Numerals.ParseIntLeadingZero` | userbot.py:44 | `int("0" + d)` equals `int(d)` for every digit string d; with the two sign rules and the `IntToString` round trip this fixes the value of every literal |
| `Numerals.IntToString` | userbot.py:64 | `str(i)` as an f-string renders it: a leading `-` exactly for negatives, then digits without leading zeros (only 0 itself is `0`), and the text parses back to i |
| `Dispatch.Forward` | userbot.py:59-122 | every call starts by fetching the message; an exception escapes only as the failure of the "Error processing" notice for this id, and it is the remote's report fault |
| `Dispatch.FetchedOnce` | userbot.py:62 | one call fetches exactly its own id, once |
| `Dispatch.AbsentMessage` | userbot.py:62-65 | a missing message gets only the "not found or inaccessible" notice: nothing is relayed or downloaded |
| `Dispatch.TextMessage` | userbot.py:68-73 | text or a caption is relayed as exactly one text message, with text preferred to caption; it replies to the source id exactly when there is text; nothing is downloaded, uploaded or removed |
| `Dispatch.EmptyMessage` | userbot.py:113-114 | a message without text, caption or media gets only the "no content" notice |
| `Dispatch.MediaDownloadedFirst` | userbot.py:76-81 | media without text or caption is downloaded exactly once, right after the fetch, whatever its kind |
| `Dispatch.DownloadRaised` | userbot.py:77-122 | a download that raises is followed at once by the handler of its exception (the sleep or the "Error processing" notice), and only a failure of that notice escapes: nothing is uploaded or removed |
| `Dispatch.MediaUploadPriority` | userbot.py:83-107 | after the download, the upload is chosen by priority video, document, photo, with an empty caption; any other kind gets the "unsupported media type" notice and nothing is relayed |
| `Dispatch.CleanupAfterUpload` | userbot.py:83-111 | when the upload step does not raise, the file is removed, once and right after it, if and only if a path came back and the file exists; the outcome is then exactly fetch, download, upload and that removal (if any), with nothing escaping |
| `Dispatch.RemoveOnlyAfterCompletion` | userbot.py:109-122 | any removal implies a media-only message, a download that returned an existing non-empty path, and an upload step that did not raise |
| `Dispatch.ExceptionPolicy` | userbot.py:116-122 | at most one handler runs, as the last action; a FloodWait sleep lets nothing escape; the "Error processing" notice names this id and only its failure escapes |
| `Dispatch.Handler` | userbot.py:116-122 | the handler of an exception: a FloodWait, and only a FloodWait, sleeps, for its `value` seconds; any other exception posts a failure notice naming this id, its class and its text |
| `Dispatch.FailureNoticeText` | userbot.py:119-122 | that failure notice reads "Error processing <id>: <class> - <text>" |
| `Dispatch.FetchRaised` | userbot.py:62-122 | a fetch that raises is followed at once by its handler: a FloodWait gives exactly fetch and a sleep of its `value` seconds, with nothing escaping; any other exception gives exactly fetch and the failure notice with its class and text, and only that notice's failure escapes |
| `Dispatch.SendRaised` | userbot.py:62-122 | when the not-found notice, the text relay or the no-content notice raises, that send is followed at once by the handler of its exception, and nothing else happens |
| `Dispatch.UploadRaised` | userbot.py:83-122 | when the upload (or the unsupported-media notice) raises, the trace is fetch, download, that upload, then the handler of its exception; the file is not removed |
| `Dispatch.RemoveRaised` | userbot.py:109-122 | when `os.remove` raises, the trace is fetch, download, upload, removal, then the handler of its exception |
| `Dispatch.FloodWaitOnFetch` | userbot.py:116-118 | a FloodWait on the fetch sleeps its duration and returns, with no notice and no retry |
| `Commands.SingleForward` | userbot.py:127-143 | `cmd_single_forward` starts and ends with a reply to the command, and that reply is the only action exactly when the words are too few or the link does not parse |
| `Commands.BatchForward` | userbot.py:146-178 | `cmd_batch_forward` starts and ends with a reply to the command |
| `Commands.EscapeReply` | userbot.py:140-143 | an escaping ValueError is replied verbatim; any other exception is replied as "Error: " (single) or "Batch error: " (batch) followed by its text |
| `Commands.UsageReplies` | userbot.py:129-149 | `/forward` with fewer than two words and `/batch` with fewer than three get only their usage text |
| `Commands.SingleBadLink` | userbot.py:132-141 | a link whose path the parser rejects gets the parser's error text as the only reply |
| `Commands.BadUrlReplied` | userbot.py:132-176 | a link `urlparse` itself refuses gets the text of that ValueError as the only reply, under either command |
| `Commands.BatchBadLink` | userbot.py:151-176 | the first link is parsed first: the parser's error for its path is the only reply, whatever the second link is |
| `Commands.BatchBadSecondLink` | userbot.py:151-176 | after a good first link, a bad second link gets its own error as the only reply |
| `Commands.SingleRun` | userbot.py:132-143 | a parsed link gives the "Starting" reply, one forwarding call fetching exactly that message, and then "✓ Done" if and only if no exception escaped it, otherwise the reply for that exception |
| `Commands.DoneEvenWhenMissing` | userbot.py:136-138 | a missing message still ends with "✓ Done"; the not-found notice goes to Saved Messages |
| `Commands.CrossChannelRefused` | userbot.py:158-159 | links to different channels get only the refusal, and nothing is fetched |
| `Commands.SameChannelIffSameSegment` | userbot.py:155-158 | two canonical links pass the same-channel check if and only if their channel segments are equal |
| `Commands.BatchRuns` | userbot.py:155-161 | two parsed links to one channel start the batch over their message ids |
| `Commands.PaceSumClosedForm` | userbot.py:163-171 | the pauses after n messages total 15·⌊n/5⌋ + 8·(n − ⌊n/5⌋) tenths |
| `Commands.SweepFrom` | userbot.py:163-171 | the loop counts at most one message per id, and it stops early exactly when an exception escapes |
| `Commands.SweepTrace` | userbot.py:163-171 | the loop's trace is, for each counted id in turn, that forwarding call's actions in full followed by its pause, then the full actions of the call that let an exception escape, if one did |
| `Commands.SweepFetches` | userbot.py:164-165 | the loop fetches the ids from the first on, ascending and once each: all of them when nothing escapes, otherwise up to and including the id whose exception escaped |
| `Commands.SweepPacing` | userbot.py:166-171 | the loop's pauses add up to the pacing rule applied to the messages it counted |
| `Commands.SweepStopsAt` | userbot.py:164-166 | an exception that ends the loop is the one escaping the forwarding call of the first uncounted id |
| `Commands.BatchLoop` | userbot.py:163-171 | the `for` loop computes the same trace, counter and escaping exception as `SweepFrom`, and it counts every id when nothing escapes |
| `Commands.BatchCompletes` | userbot.py:161-173 | when no forwarding call lets an exception escape, the batch trace is the start reply, then every forwarding call from first to last in full, each followed by its pause, then the finish reply; so every id is fetched, ascending and once each, max(0, last − first + 1) messages are reported processed, found or not, and the pauses total the closed form |
| `Commands.EscapeAbortsBatch` | userbot.py:164-178 | an escaping exception is the failed report of the last id fetched; the trace is the start reply, the completed turns, that call's actions in full and the handler's reply; the id is not counted, no later id is fetched, and the reply replaces "Batch finished": the exception's text verbatim for a ValueError, otherwise "Batch error: " and its text |
| `Commands.ReversedRange` | userbot.py:164 | a last id below the first runs no iteration and reports 0 messages processed |

## Left out

- `urlparse` is the `urlPath` function of the `World`: for each link it gives the path or the text of the ValueError it raises (CPython raises "Invalid IPv6 URL" for an unbalanced or invalid bracketed host). Which URLs it refuses and which path it extracts are not modelled.
- `int()` is modelled on ASCII digits with an optional sign only. Python also accepts surrounding whitespace, `_` separators and non-ASCII digits; those inputs are treated as rejected.
- The `ValueError` text for a bad literal quotes it with plain single quotes. Python's `repr` escapes quotes and backslashes inside it.
- `None` for message text, caption or downloaded path is modelled as the empty string. Both are falsy, so they take the same branches.
- The `progress` callback (userbot.py:52-56) is left out as code. It prints floating-point percentages, and it raises ZeroDivisionError when `total` is 0; such a raise surfaces as a raising download or upload, which `Remote` already expresses (`downloaded = Raised(_)`, `sendFault`).
- Start-up is left out: environment checks, `Client` construction and `main` (userbot.py:1-31 and 181-195).
- The `print` calls and the keyword flags of the client calls (`block`, `supports_streaming`) are left out.
- Real time is left out. Sleeps are recorded as `Backoff(seconds)` and `Pace(tenths)` actions.
- `message.reply` is taken never to raise. A failing reply inside an `except` clause would escape the handler, and that path is not modelled.
- How pyrogram splits a command into `message.command` is left out. The handlers take the resulting words.
- Concurrent commands and the asyncio scheduling between them are left out. Each command is modelled as if it ran alone.
- Commands.DoneEvenWhenMissing: stated only for the case where the not-found notice itself is sent without raising; a failing notice is covered by `Dispatch.ExceptionPolicy` and `Commands.SingleRun`.
- Numerals.ParseInt: does not model CPython's limit on integer string conversion (4300 digits by default since 3.11 and the 3.10.7 / 3.9.14 releases), which makes `int()` raise ValueError on longer digit strings; the model accepts them, so `Link.ParseAccepts` and `Link.ChannelLiteralValue` also cover links CPython would refuse. The limit is a runtime setting (`sys.set_int_max_str_digits`) and absent from older versions.
- Numerals.IntToString: likewise ignores the same limit for `str()` of an int with more than 4300 digits.

=== FILE: basics.dfy ===
/** Small failure-carrying datatypes shared by the forwarder model. */
module Basics {

  /** A value that may be absent: Python's `None` versus a present value. */
  datatype Option<+T> = None | Some(value: T)

  /** The outcome of an operation that either returns or raises a modelled error. */
  datatype Result<+T, +E> = Ok(value: T) | Err(error: E)
}

=== FILE: commands.dfy ===
/**
 * The two operator commands: `/forward <link>` forwards one message and
 * `/batch <first-link> <last-link>` forwards an inclusive ascending range of
 * ids from one channel, pausing between messages.
 */
module Commands {
  import opened Basics
  import opened Numerals
  import opened Link
  import opened Trace
  import opened Dispatch

  /**
   * What the handlers depend on besides the command words: how `urlparse`
   * reduces a link to its path (or the text of the ValueError it raises), and
   * how the remote behaves for each (chat, message) pair.
   */
  datatype World = World(urlPath: string -> Result<string, string>, remote: (int, int) -> Remote)

  /** The reply of a handler's `except` clauses to an exception escaping `process_and_forward`. */
  function EscapeReply(f: Fault, inBatch: bool): (r: ReplyKind)
    ensures r.Verbatim? <==> f.Failure? && f.isValueError
    ensures ReplyText(r) == (if r.Verbatim? then "" else if inBatch then "Batch error: " else "Error: ") + f.detail
  {
    if f.Failure? && f.isValueError then Verbatim(f.detail)
    else if inBatch then BatchError(f.detail)
    else ForwardError(f.detail)
  }

  /** `cmd_single_forward`. */
  function SingleForward(words: seq<string>, w: World): (t: seq<Action>)
    ensures |t| >= 1 && t[0].Reply? && t[|t| - 1].Reply?
    ensures |t| == 1 <==> |words| < 2 || ParseMessageLink(w.urlPath(words[1])).Err?
  {
    if |words| < 2 then [Reply(ForwardUsage)]
    else
      match ParseMessageLink(w.urlPath(words[1]))
      case Err(text) => [Reply(Verbatim(text))]
      case Ok(loc) => RunSingle(loc, w.remote)
  }

  /** The `try` body of `cmd_single_forward` once the link has parsed. */
  function RunSingle(loc: Locator, remote: (int, int) -> Remote): (t: seq<Action>)
    ensures |t| >= 4 && t[0] == Reply(Starting(loc.message)) && t[|t| - 1].Reply?
  {
    var o := Forward(loc.channel, loc.message, remote(loc.channel, loc.message));
    [Reply(Starting(loc.message))] + o.trace
      + [Reply(if o.escaped.None? then Done else EscapeReply(o.escaped.value, false))]
  }

  /** The pause after the `processed`-th message of a batch: 1.5 s after every fifth, 0.8 s otherwise. */
  function PaceAfter(processed: nat): nat
  {
    if processed % 5 == 0 then 15 else 8
  }

  /** The sum of the pauses after messages 1..n. */
  function PaceSum(n: nat): nat
  {
    if n == 0 then 0 else PaceSum(n - 1) + PaceAfter(n)
  }

  /** Every fifth pause is 15 tenths and the others 8. */
  lemma {:induction false} PaceSumClosedForm(n: nat)
    ensures PaceSum(n) == 15 * (n / 5) + 8 * (n - n / 5)
  {
    if n > 0 {
      PaceSumClosedForm(n - 1);
      if n % 5 == 0 {
        assert n / 5 == (n - 1) / 5 + 1;
      } else {
        assert n / 5 == (n - 1) / 5;
      }
    }
  }

  /** The `n` consecutive ids starting at `first`, ascending. */
  function Ids(first: int, n: nat): (ids: seq<int>)
    ensures |ids| == n
    ensures forall i :: 0 <= i < n ==> ids[i] == first + i
    decreases n
  {
    if n == 0 then [] else [first] + Ids(first + 1, n - 1)
  }

  /** How many ids `range(first, last + 1)` yields. */
  function Span(first: int, last: int): nat
  {
    if first <= last then last - first + 1 else 0
  }

  /** The state of the batch loop when it stops: the calls made, the counter, and an escaping exception. */
  datatype Sweep = Sweep(trace: seq<Action>, processed: nat, escaped: Option<Fault>)

  /** `process_and_forward(client, chat, ·)`: forwarding within one chat, as a function of the message id. */
  function ForwardIn(chat: int, remote: (int, int) -> Remote): int -> Outcome
  {
    id => Forward(chat, id, remote(chat, id))
  }

  /** What the loop relies on from each forwarding call: it fetches its own id, once. */
  ghost predicate FetchesOwnId(step: int -> Outcome)
  {
    forall id :: FetchedIds(step(id).trace) == [id]
  }

  /** What the loop relies on from each forwarding call: it never pauses. */
  ghost predicate NeverPaces(step: int -> Outcome)
  {
    forall id :: PaceTotal(step(id).trace) == 0
  }

  /** `process_and_forward` is such a step: it fetches its own id once and never pauses. */
  lemma ForwardInWellBehaved(chat: int, remote: (int, int) -> Remote)
    ensures FetchesOwnId(ForwardIn(chat, remote))
    ensures NeverPaces(ForwardIn(chat, remote))
  {
    forall id
      ensures FetchedIds(ForwardIn(chat, remote)(id).trace) == [id]
      ensures PaceTotal(ForwardIn(chat, remote)(id).trace) == 0
    {
      FetchedOnce(chat, id, remote(chat, id));
      NoPacing(chat, id, remote(chat, id));
    }
  }

  /**
   * The loop of `cmd_batch_forward` from id `id` on, with `processed` messages
   * already done: forward each id with `step`, count it, pause; an exception
   * escaping the step ends the loop.
   */
  function SweepFrom(id: int, last: int, processed: nat, step: int -> Outcome): (s: Sweep)
    ensures processed <= s.processed <= processed + Span(id, last)
    ensures s.escaped.None? <==> s.processed == processed + Span(id, last)
    decreases Span(id, last)
  {
    if id > last then Sweep([], processed, None)
    else
      var o := step(id);
      if o.escaped.Some? then
        Sweep(o.trace, processed, o.escaped)
      else
        var rest := SweepFrom(id + 1, last, processed + 1, step);
        Sweep(o.trace + [Pace(PaceAfter(processed + 1))] + rest.trace, rest.processed, rest.escaped)
  }

  /**
   * `n` turns of the loop body from `id` on, with `processed` messages done
   * before them: each forwarding call's actions in full, followed by its pause.
   */
  function Turns(id: int, processed: nat, n: nat, step: int -> Outcome): seq<Action>
    decreases n
  {
    if n == 0 then []
    else step(id).trace + [Pace(PaceAfter(processed + 1))] + Turns(id + 1, processed + 1, n - 1, step)
  }

  /**
   * The loop's trace is its completed turns, each call's actions in full with
   * its pause, followed by the whole trace of the call that let an exception
   * escape, if one did.
   */
  lemma {:induction false} SweepTrace(id: int, last: int, processed: nat, step: int -> Outcome)
    ensures var s := SweepFrom(id, last, processed, step);
      var k := s.processed - processed;
      s.trace == Turns(id, processed, k, step) + (if s.escaped.Some? then step(id + k).trace else [])
    decreases Span(id, last)
  {
    var s := SweepFrom(id, last, processed, step);
    if id > last {
      assert s.trace == [] + [];
    } else if step(id).escaped.Some? {
      assert s.trace == [] + step(id).trace;
    } else {
      SweepTrace(id + 1, last, processed + 1, step);
      SweepTraceTurn(id, last, processed, step);
    }
  }

  /** The inductive step of `SweepTrace`: one completed turn in front of the rest of the loop. */
  lemma SweepTraceTurn(id: int, last: int, processed: nat, step: int -> Outcome)
    requires id <= last && step(id).escaped.None?
    requires var rest := SweepFrom(id + 1, last, processed + 1, step);
      var k := rest.processed - (processed + 1);
      rest.trace == Turns(id + 1, processed + 1, k, step) + (if rest.escaped.Some? then step(id + 1 + k).trace else [])
    ensures var s := SweepFrom(id, last, processed, step);
      var k := s.processed - processed;
      s.trace == Turns(id, processed, k, step) + (if s.escaped.Some? then step(id + k).trace else [])
  {
    var rest := SweepFrom(id + 1, last, processed + 1, step);
    var k := rest.processed - (processed + 1);
    var head := step(id).trace + [Pace(PaceAfter(processed + 1))];
    var tail := if rest.escaped.Some? then step(id + 1 + k).trace else [];
    var turns := Turns(id + 1, processed + 1, k, step);
    assert SweepFrom(id, last, processed, step).trace == head + (turns + tail);
    assert Turns(id, processed, k + 1, step) == head + turns;
    assert head + (turns + tail) == (head + turns) + tail;
  }

  /**
   * The loop fetches the ids from `id` on in ascending order, each once: all of
   * them up to `last` when nothing escapes, otherwise up to and including the
   * message whose failure report escaped.
   */
  lemma {:induction false} SweepFetches(id: int, last: int, processed: nat, step: int -> Outcome)
    requires FetchesOwnId(step)
    ensures var s := SweepFrom(id, last, processed, step);
      FetchedIds(s.trace) == Ids(id, s.processed - processed + (if s.escaped.Some? then 1 else 0))
    decreases Span(id, last)
  {
    if id <= last {
      if step(id).escaped.None? {
        SweepFetches(id + 1, last, processed + 1, step);
        SweepFetchesTurn(id, last, processed, step);
      } else {
        assert FetchedIds(step(id).trace) == [id];
      }
    }
  }

  /** The inductive step of `SweepFetches`: one completed turn in front of the rest of the loop. */
  lemma SweepFetchesTurn(id: int, last: int, processed: nat, step: int -> Outcome)
    requires FetchesOwnId(step) && id <= last && step(id).escaped.None?
    requires var rest := SweepFrom(id + 1, last, processed + 1, step);
      FetchedIds(rest.trace) == Ids(id + 1, rest.processed - (processed + 1) + (if rest.escaped.Some? then 1 else 0))
    ensures var s := SweepFrom(id, last, processed, step);
      FetchedIds(s.trace) == Ids(id, s.processed - processed + (if s.escaped.Some? then 1 else 0))
  {
    var rest := SweepFrom(id + 1, last, processed + 1, step);
    var n := rest.processed - (processed + 1) + (if rest.escaped.Some? then 1 else 0);
    FetchedThenRest(step(id).trace, id, PaceAfter(processed + 1), rest.trace, n);
  }

  /** A message fetching `id`, its pause, and a rest fetching the next `n` ids fetch `n + 1` ids from `id`. */
  lemma FetchedThenRest(t: seq<Action>, id: int, tenths: nat, rest: seq<Action>, n: nat)
    requires FetchedIds(t) == [id]
    requires FetchedIds(rest) == Ids(id + 1, n)
    ensures FetchedIds(t + [Pace(tenths)] + rest) == Ids(id, n + 1)
  {
    FetchStep(t, id, tenths, rest);
  }

  /** The pauses of the loop add up to the pacing rule applied to the messages it counted. */
  lemma {:induction false} SweepPacing(id: int, last: int, processed: nat, step: int -> Outcome)
    requires NeverPaces(step)
    ensures var s := SweepFrom(id, last, processed, step);
      PaceTotal(s.trace) + PaceSum(processed) == PaceSum(s.processed)
    decreases Span(id, last)
  {
    if id <= last {
      var o := step(id);
      if o.escaped.None? {
        var rest := SweepFrom(id + 1, last, processed + 1, step);
        SweepPacing(id + 1, last, processed + 1, step);
        PaceStep(o.trace, PaceAfter(processed + 1), rest.trace);
      }
    }
  }

  /** One forwarded message followed by its pause and the rest of the loop fetches that message first. */
  lemma FetchStep(t: seq<Action>, id: int, tenths: nat, rest: seq<Action>)
    requires FetchedIds(t) == [id]
    ensures FetchedIds(t + [Pace(tenths)] + rest) == [id] + FetchedIds(rest)
  {
    var pause := [Pace(tenths)];
    assert pause[..0] == [];
    FetchedIdsAppend(t, pause);
    FetchedIdsAppend(t + pause, rest);
  }

  /** One forwarded message that does not pause, followed by its pause and the rest of the loop. */
  lemma PaceStep(t: seq<Action>, tenths: nat, rest: seq<Action>)
    requires PaceTotal(t) == 0
    ensures PaceTotal(t + [Pace(tenths)] + rest) == tenths + PaceTotal(rest)
  {
    var pause := [Pace(tenths)];
    assert pause[..0] == [];
    PaceTotalAppend(t, pause);
    PaceTotalAppend(t + pause, rest);
  }

  /** `cmd_batch_forward`. */
  function BatchForward(words: seq<string>, w: World): (t: seq<Action>)
    ensures |t| >= 1 && t[0].Reply? && t[|t| - 1].Reply?
  {
    if |words| < 3 then [Reply(BatchUsage)]
    else
      match ParseMessageLink(w.urlPath(words[1]))
      case Err(text) => [Reply(Verbatim(text))]
      case Ok(first) =>
        match ParseMessageLink(w.urlPath(words[2]))
        case Err(text) => [Reply(Verbatim(text))]
        case Ok(last) =>
          if first.channel != last.channel then [Reply(SameChannelRequired)]
          else RunBatch(first.channel, first.message, last.message, w.remote)
  }

  /** The `try` body of `cmd_batch_forward` once both links have parsed to one channel. */
  function RunBatch(chat: int, first: int, last: int, remote: (int, int) -> Remote): (t: seq<Action>)
    ensures |t| >= 2 && t[0] == Reply(BatchStarting(first, last)) && t[|t| - 1].Reply?
  {
    Sweeping(first, last, ForwardIn(chat, remote))
  }

  /** The batch replies around the loop, for any step function. */
  function Sweeping(first: int, last: int, step: int -> Outcome): (t: seq<Action>)
    ensures |t| >= 2 && t[0] == Reply(BatchStarting(first, last)) && t[|t| - 1].Reply?
  {
    var s := SweepFrom(first, last, 0, step);
    [Reply(BatchStarting(first, last))] + s.trace
      + [Reply(if s.escaped.None? then BatchFinished(s.processed) else EscapeReply(s.escaped.value, true))]
  }

  /**
   * The `for msg_id in range(start_id, end_id + 1)` loop as written: it
   * computes the same trace, counter and escaping exception as `SweepFrom`.
   */
  method BatchLoop(chat: int, first: int, last: int, remote: (int, int) -> Remote)
    returns (trace: seq<Action>, processed: nat, escaped: Option<Fault>)
    ensures Sweep(trace, processed, escaped) == SweepFrom(first, last, 0, ForwardIn(chat, remote))
    ensures escaped.None? ==> processed == Span(first, last)
  {
    trace, processed, escaped := Loop(first, last, ForwardIn(chat, remote));
  }

  /** The loop over any step function. */
  method Loop(first: int, last: int, step: int -> Outcome)
    returns (trace: seq<Action>, processed: nat, escaped: Option<Fault>)
    ensures Sweep(trace, processed, escaped) == SweepFrom(first, last, 0, step)
  {
    ghost var goal := SweepFrom(first, last, 0, step);
    trace, processed, escaped := [], 0, None;
    var id := first;
    while id <= last && escaped.None?
      invariant first <= id && processed == id - first
      invariant id <= last + 1 || id == first
      invariant escaped.Some? ==> goal == Sweep(trace, processed, escaped)
      invariant escaped.None? ==> goal == Resume(trace, SweepFrom(id, last, processed, step))
      decreases last - id, if escaped.None? then 1 else 0
    {
      var o := step(id);
      SweepTurn(id, last, processed, step);
      if o.escaped.Some? {
        trace, escaped := trace + o.trace, o.escaped;
      } else {
        var turn := o.trace + [Pace(PaceAfter(processed + 1))];
        ResumeAppend(trace, turn, SweepFrom(id + 1, last, processed + 1, step));
        trace, processed, id := trace + turn, processed + 1, id + 1;
      }
    }
    if escaped.None? {
      assert trace + [] == trace;
    }
  }

  /** The loop state `done` followed by the remaining turns `rest`. */
  function Resume(done: seq<Action>, rest: Sweep): Sweep
  {
    Sweep(done + rest.trace, rest.processed, rest.escaped)
  }

  /** One turn of the loop at `id`: it stops at an escaping step and otherwise paces and goes on. */
  lemma SweepTurn(id: int, last: int, processed: nat, step: int -> Outcome)
    requires id <= last
    ensures step(id).escaped.Some? ==> SweepFrom(id, last, processed, step) == Sweep(step(id).trace, processed, step(id).escaped)
    ensures step(id).escaped.None? ==>
      SweepFrom(id, last, processed, step)
        == Resume(step(id).trace + [Pace(PaceAfter(processed + 1))], SweepFrom(id + 1, last, processed + 1, step))
  {
  }

  /** Resuming twice is resuming once with both prefixes. */
  lemma ResumeAppend(a: seq<Action>, b: seq<Action>, rest: Sweep)
    ensures Resume(a, Resume(b, rest)) == Resume(a + b, rest)
  {
    assert a + (b + rest.trace) == (a + b) + rest.trace;
  }

  // ---- What the commands do ----

  /** Too few words: the usage text and nothing else, for either command. */
  lemma UsageReplies(words: seq<string>, w: World)
    ensures |words| < 2 ==> SingleForward(words, w) == [Reply(ForwardUsage)]
    ensures |words| < 3 ==> BatchForward(words, w) == [Reply(BatchUsage)]
    ensures |words| < 2 ==> ReplyText(SingleForward(words, w)[0].reply) == "Usage:\n/forward https://t.me/c/xxxxxx/123"
    ensures |words| < 3 ==> ReplyText(BatchForward(words, w)[0].reply) == "Usage:\n/batch https://t.me/c/xxxx/100 https://t.me/c/xxxx/150"
  {
  }

  /** A link whose path does not parse: the parser's `ValueError` text is the only reply and nothing is fetched. */
  lemma SingleBadLink(words: seq<string>, w: World, path: string, e: ParseError)
    requires |words| >= 2 && w.urlPath(words[1]) == Ok(path) && ParseLink(path) == Err(e)
    ensures SingleForward(words, w) == [Reply(Verbatim(ErrorText(e)))]
    ensures ReplyText(SingleForward(words, w)[0].reply) == ErrorText(e)
  {
  }

  /** A link `urlparse` itself refuses: the text of its `ValueError` is the only reply, for either command. */
  lemma BadUrlReplied(words: seq<string>, w: World, text: string)
    requires |words| >= 2 && w.urlPath(words[1]) == Err(text)
    ensures SingleForward(words, w) == [Reply(Verbatim(text))]
    ensures |words| >= 3 ==> BatchForward(words, w) == [Reply(Verbatim(text))]
  {
  }

  /** The first link is parsed first: when it is bad, its error is the reply whatever the second is. */
  lemma BatchBadLink(words: seq<string>, w: World, path: string, e: ParseError)
    requires |words| >= 3 && w.urlPath(words[1]) == Ok(path) && ParseLink(path) == Err(e)
    ensures BatchForward(words, w) == [Reply(Verbatim(ErrorText(e)))]
  {
  }

  /** A good first link followed by a bad second one: the second link's error is the only reply. */
  lemma BatchBadSecondLink(words: seq<string>, w: World, start: Locator, text: string)
    requires |words| >= 3 && ParseMessageLink(w.urlPath(words[1])) == Ok(start)
    requires ParseMessageLink(w.urlPath(words[2])) == Err(text)
    ensures BatchForward(words, w) == [Reply(Verbatim(text))]
  {
  }

  /**
   * One forward: the "Starting" reply, the forwarding call for the parsed
   * message, then "Done" unless an exception escaped it, in which case the
   * reply carries that exception. The message is fetched once.
   */
  lemma SingleRun(words: seq<string>, w: World, loc: Locator)
    requires |words| >= 2 && ParseMessageLink(w.urlPath(words[1])) == Ok(loc)
    ensures var t, o := SingleForward(words, w), Forward(loc.channel, loc.message, w.remote(loc.channel, loc.message));
      && t == [Reply(Starting(loc.message))] + o.trace + [t[|t| - 1]]
      && FetchedIds(t) == [loc.message]
      && (t[|t| - 1] == Reply(Done) <==> o.escaped.None?)
      && (o.escaped.Some? ==> t[|t| - 1] == Reply(EscapeReply(o.escaped.value, false)))
  {
    var o := Forward(loc.channel, loc.message, w.remote(loc.channel, loc.message));
    FetchedOnce(loc.channel, loc.message, w.remote(loc.channel, loc.message));
    RepliesAround(Starting(loc.message), o.trace, SingleForward(words, w)[|SingleForward(words, w)| - 1]);
  }

  /** Replies fetch nothing: wrapping a trace in two replies leaves its fetched ids unchanged. */
  lemma RepliesAround(a: ReplyKind, t: seq<Action>, b: Action)
    requires !b.Fetch?
    ensures FetchedIds([Reply(a)] + t + [b]) == FetchedIds(t)
  {
    assert [Reply(a)][..0] == [];
    FetchedIdsAppend([Reply(a)], t);
    FetchedIdsAppend([Reply(a)] + t, [b]);
    assert [b][..0] == [];
  }

  /** A message that is not there still ends with "Done": the notice goes to Saved Messages instead. */
  lemma DoneEvenWhenMissing(words: seq<string>, w: World, loc: Locator)
    requires |words| >= 2 && ParseMessageLink(w.urlPath(words[1])) == Ok(loc)
    requires w.remote(loc.channel, loc.message).fetched == Returned(None)
    requires w.remote(loc.channel, loc.message).sendFault.None?
    ensures var t := SingleForward(words, w);
      t == [Reply(Starting(loc.message)), Fetch(loc.channel, loc.message), Note(NotFound(loc.message)), Reply(Done)]
  {
    AbsentMessage(loc.channel, loc.message, w.remote(loc.channel, loc.message));
  }

  /** Links to different channels are refused before anything is fetched. */
  lemma CrossChannelRefused(words: seq<string>, w: World, p: string, q: string, first: Locator, last: Locator)
    requires |words| >= 3 && w.urlPath(words[1]) == Ok(p) && w.urlPath(words[2]) == Ok(q)
    requires ParseLink(p) == Ok(first) && ParseLink(q) == Ok(last)
    requires first.channel != last.channel
    ensures BatchForward(words, w) == [Reply(SameChannelRequired)]
    ensures FetchedIds(BatchForward(words, w)) == []
  {
    FetchedIdsNone(BatchForward(words, w));
  }

  /** Two canonical links name the same channel exactly when their channel segments are equal. */
  lemma SameChannelIffSameSegment(a: string, m: int, b: string, n: int)
    requires IsDigits(a) && IsDigits(b)
    ensures ParseLink(LinkPath(a, m)).Ok? && ParseLink(LinkPath(b, n)).Ok?
    ensures ParseLink(LinkPath(a, m)).value.channel == ParseLink(LinkPath(b, n)).value.channel <==> a == b
  {
    LinkPathRoundTrip(a, m);
    LinkPathRoundTrip(b, n);
    ChannelIdInjective(a, b);
  }

  /** Both links parsed to one channel: the batch runs over their message ids. */
  lemma BatchRuns(words: seq<string>, w: World, p: string, q: string, first: Locator, last: Locator)
    requires |words| >= 3 && w.urlPath(words[1]) == Ok(p) && w.urlPath(words[2]) == Ok(q)
    requires ParseLink(p) == Ok(first) && ParseLink(q) == Ok(last)
    requires first.channel == last.channel
    ensures BatchForward(words, w) == RunBatch(first.channel, first.message, last.message, w.remote)
  {
  }

  /** The loop ends without an exception when no step lets one escape. */
  lemma {:induction false} SweepCompletes(id: int, last: int, processed: nat, step: int -> Outcome)
    requires forall i :: id <= i <= last ==> step(i).escaped.None?
    ensures SweepFrom(id, last, processed, step).escaped.None?
    decreases Span(id, last)
  {
    if id <= last {
      SweepCompletes(id + 1, last, processed + 1, step);
    }
  }

  /** When the loop stops early, it stops at the id whose step let the exception escape. */
  lemma {:induction false} SweepStopsAt(id: int, last: int, processed: nat, step: int -> Outcome)
    ensures var s := SweepFrom(id, last, processed, step);
      s.escaped.Some? ==> step(id + (s.processed - processed)).escaped == s.escaped
    decreases Span(id, last)
  {
    if id <= last && step(id).escaped.None? {
      SweepStopsAt(id + 1, last, processed + 1, step);
    }
  }

  /**
   * With no step letting an exception escape, the loop fetches every id from
   * first to last in ascending order, once each, counts them all, and paces
   * after each one.
   */
  lemma SweepingCompletes(first: int, last: int, step: int -> Outcome)
    requires FetchesOwnId(step) && NeverPaces(step)
    requires forall i :: first <= i <= last ==> step(i).escaped.None?
    ensures var t, n := Sweeping(first, last, step), Span(first, last);
      && FetchedIds(t) == Ids(first, n)
      && t[|t| - 1] == Reply(BatchFinished(n))
      && PaceTotal(t) == PaceSum(n)
  {
    SweepCompletes(first, last, 0, step);
    SweepFetches(first, last, 0, step);
    SweepPacing(first, last, 0, step);
    var s := SweepFrom(first, last, 0, step);
    var b := Reply(BatchFinished(s.processed));
    RepliesAround(BatchStarting(first, last), s.trace, b);
    PacesAround(BatchStarting(first, last), s.trace, b);
  }

  /**
   * When no forwarding call lets an exception escape, the batch forwards every id from first to last in
   * ascending order, once each, counts them all (found or not), and paces
   * 1.5 s after every fifth message and 0.8 s after the others.
   */
  lemma BatchCompletes(chat: int, first: int, last: int, remote: (int, int) -> Remote)
    requires forall id :: first <= id <= last ==> Forward(chat, id, remote(chat, id)).escaped.None?
    ensures var t, n := RunBatch(chat, first, last, remote), Span(first, last);
      && t == [Reply(BatchStarting(first, last))] + Turns(first, 0, n, ForwardIn(chat, remote)) + [Reply(BatchFinished(n))]
      && FetchedIds(t) == Ids(first, n)
      && t[|t| - 1] == Reply(BatchFinished(n))
      && PaceTotal(t) == 15 * (n / 5) + 8 * (n - n / 5)
  {
    var step := ForwardIn(chat, remote);
    forall i | first <= i <= last
      ensures step(i).escaped.None?
    {
      assert step(i) == Forward(chat, i, remote(chat, i));
    }
    ForwardInWellBehaved(chat, remote);
    SweepingCompletes(first, last, step);
    SweepingTrace(first, last, step);
    PaceSumClosedForm(Span(first, last));
  }

  /** The batch trace: the start reply, the loop's turns, the escaped call's actions if any, and the final reply. */
  lemma SweepingTrace(first: int, last: int, step: int -> Outcome)
    ensures var s, t := SweepFrom(first, last, 0, step), Sweeping(first, last, step);
      t == [Reply(BatchStarting(first, last))] + Turns(first, 0, s.processed, step)
        + (if s.escaped.Some? then step(first + s.processed).trace else [])
        + [t[|t| - 1]]
  {
    SweepTrace(first, last, 0, step);
  }

  /** Replies do not pause: wrapping a trace in two replies leaves its pacing unchanged. */
  lemma PacesAround(a: ReplyKind, t: seq<Action>, b: Action)
    requires !b.Pace?
    ensures PaceTotal([Reply(a)] + t + [b]) == PaceTotal(t)
  {
    assert [Reply(a)][..0] == [];
    PaceTotalAppend([Reply(a)], t);
    PaceTotalAppend([Reply(a)] + t, [b]);
    assert [b][..0] == [];
  }

  /** An escaping step ends the loop at that id: the ids after it are never fetched. */
  lemma SweepEscapes(first: int, last: int, step: int -> Outcome)
    requires FetchesOwnId(step)
    ensures var s := SweepFrom(first, last, 0, step);
      s.escaped.Some? ==>
        && s.processed < Span(first, last)
        && FetchedIds(s.trace) == Ids(first, s.processed + 1)
        && step(first + s.processed).escaped == s.escaped
  {
    SweepFetches(first, last, 0, step);
    SweepStopsAt(first, last, 0, step);
  }

  /** An escaping step ends the batch with the handler's reply for it. */
  lemma SweepingEscapes(first: int, last: int, step: int -> Outcome)
    requires FetchesOwnId(step)
    ensures var s, t := SweepFrom(first, last, 0, step), Sweeping(first, last, step);
      s.escaped.Some? ==>
        && FetchedIds(t) == Ids(first, s.processed + 1)
        && t[|t| - 1] == Reply(EscapeReply(s.escaped.value, true))
  {
    var s := SweepFrom(first, last, 0, step);
    if s.escaped.Some? {
      SweepEscapes(first, last, step);
      RepliesAround(BatchStarting(first, last), s.trace, Reply(EscapeReply(s.escaped.value, true)));
    }
  }

  /**
   * An exception escaping one forwarding call ends the batch: it is the failed
   * report of the last id fetched, the ids after it are never fetched, the
   * counter is not incremented for it, and the reply is the handler's for that
   * exception instead of "Batch finished".
   */
  lemma EscapeAbortsBatch(chat: int, first: int, last: int, remote: (int, int) -> Remote)
    ensures var s, t := SweepFrom(first, last, 0, ForwardIn(chat, remote)), RunBatch(chat, first, last, remote);
      s.escaped.Some? ==>
        && t == [Reply(BatchStarting(first, last))] + Turns(first, 0, s.processed, ForwardIn(chat, remote))
             + Forward(chat, first + s.processed, remote(chat, first + s.processed)).trace
             + [Reply(EscapeReply(s.escaped.value, true))]
        && s.processed < Span(first, last)
        && FetchedIds(t) == Ids(first, s.processed + 1)
        && s.escaped == remote(chat, first + s.processed).reportFault
        && t[|t| - 1] == Reply(EscapeReply(s.escaped.value, true))
  {
    EscapeEndsBatch(chat, first, last, remote);
    EscapedReport(chat, first, last, remote);
    EscapedTrace(chat, first, last, remote);
  }

  lemma EscapedTrace(chat: int, first: int, last: int, remote: (int, int) -> Remote)
    ensures var s, t := SweepFrom(first, last, 0, ForwardIn(chat, remote)), RunBatch(chat, first, last, remote);
      s.escaped.Some? ==>
        t == [Reply(BatchStarting(first, last))] + Turns(first, 0, s.processed, ForwardIn(chat, remote))
          + Forward(chat, first + s.processed, remote(chat, first + s.processed)).trace
          + [Reply(EscapeReply(s.escaped.value, true))]
  {
    var step := ForwardIn(chat, remote);
    SweepingEscapedTrace(first, last, step);
    var s := SweepFrom(first, last, 0, step);
    if s.escaped.Some? {
      assert step(first + s.processed) == Forward(chat, first + s.processed, remote(chat, first + s.processed));
    }
  }

  lemma SweepingEscapedTrace(first: int, last: int, step: int -> Outcome)
    ensures var s, t := SweepFrom(first, last, 0, step), Sweeping(first, last, step);
      s.escaped.Some? ==>
        t == [Reply(BatchStarting(first, last))] + Turns(first, 0, s.processed, step)
          + step(first + s.processed).trace + [Reply(EscapeReply(s.escaped.value, true))]
  {
    SweepingTrace(first, last, step);
  }

  lemma EscapeEndsBatch(chat: int, first: int, last: int, remote: (int, int) -> Remote)
    ensures var s, t := SweepFrom(first, last, 0, ForwardIn(chat, remote)), RunBatch(chat, first, last, remote);
      s.escaped.Some? ==>
        && s.processed < Span(first, last)
        && FetchedIds(t) == Ids(first, s.processed + 1)
        && t[|t| - 1] == Reply(EscapeReply(s.escaped.value, true))
  {
    var step := ForwardIn(chat, remote);
    ForwardInWellBehaved(chat, remote);
    SweepEscapes(first, last, step);
    SweepingEscapes(first, last, step);
  }

  lemma EscapedReport(chat: int, first: int, last: int, remote: (int, int) -> Remote)
    ensures var s := SweepFrom(first, last, 0, ForwardIn(chat, remote));
      s.escaped.Some? ==> s.escaped == remote(chat, first + s.processed).reportFault
  {
    var step := ForwardIn(chat, remote);
    ForwardInReports(chat, remote);
    var report := id => remote(chat, id).reportFault;
    EscapeIsReport(first, last, step, report);
    var s := SweepFrom(first, last, 0, step);
    if s.escaped.Some? {
      assert s.escaped == report(first + s.processed);
    }
  }

  /** Only a failed report escapes a forwarding call. */
  lemma ForwardInReports(chat: int, remote: (int, int) -> Remote)
    ensures forall id :: ForwardIn(chat, remote)(id).escaped.Some? ==>
      ForwardIn(chat, remote)(id).escaped == remote(chat, id).reportFault
  {
  }

  /** The exception that stops the loop is the one the stopping step let escape. */
  lemma EscapeIsReport(first: int, last: int, step: int -> Outcome, report: int -> Option<Fault>)
    requires forall id :: step(id).escaped.Some? ==> step(id).escaped == report(id)
    ensures var s := SweepFrom(first, last, 0, step);
      s.escaped.Some? ==> s.escaped == report(first + s.processed)
  {
    SweepStopsAt(first, last, 0, step);
  }

  /** A last id below the first: the loop body never runs and zero messages are reported. */
  lemma ReversedRange(chat: int, first: int, last: int, remote: (int, int) -> Remote)
    requires last < first
    ensures RunBatch(chat, first, last, remote) == [Reply(BatchStarting(first, last)), Reply(BatchFinished(0))]
  {
  }
}

=== FILE: dispatch.dfy ===
/**
 * `process_and_forward`: fetch one source message and relay it to Saved
 * Messages: text inline, media by a download-then-upload round trip followed
 * by removal of the downloaded file, and a notice for anything else. The chat
 * client and the file system are an oracle (`Remote`) saying what each call
 * returns or raises; the result is the trace of calls made.
 */
module Dispatch {
  import opened Basics
  import opened Trace
  import Numerals

  /** Which media attributes of a message are set; audio, stickers and the like set none of the three. */
  datatype Media = Media(video: bool, document: bool, photo: bool)

  /**
   * The fields of a fetched message the forwarder reads. Python's falsy `None`
   * and `""` are both the empty string here.
   */
  datatype SourceMessage = SourceMessage(text: string, caption: string, media: Option<Media>)

  /** What the client and the file system do for one message. */
  datatype Remote = Remote(
    fetched: Step<Option<SourceMessage>>, // get_messages: the message, None when absent, or a raise
    downloaded: Step<string>,             // download_media: the local path ("" for None), or a raise
    sendFault: Option<Fault>,             // the one outbound send (relay or notice) raises this, if any
    fileExists: bool,                     // os.path.exists on the downloaded path
    removeFault: Option<Fault>,           // os.remove raises this, if any
    reportFault: Option<Fault>)           // the send of the "Error processing" notice raises this, if any

  /** The calls made, and the exception that escapes the function, if any. */
  datatype Outcome = Outcome(trace: seq<Action>, escaped: Option<Fault>)

  /**
   * The action of the `except` clause that catches `f`: a FloodWait sleeps its
   * `value` seconds; any other exception posts "Error processing <id>: <class>
   * - <text>" to Saved Messages.
   */
  function Handler(id: int, f: Fault): (a: Action)
    ensures f.FloodWait? <==> a.Backoff?
    ensures f.FloodWait? ==> a.seconds == f.seconds
    ensures f.Failure? ==> a == Note(Failed(id, f.name, f.detail))
  {
    match f
    case FloodWait(seconds, _) => Backoff(seconds)
    case Failure(name, detail, _) => Note(Failed(id, name, detail))
  }

  /** The notice posted for a non-FloodWait exception reads "Error processing <id>: <class> - <text>". */
  lemma FailureNoticeText(id: int, f: Fault)
    requires f.Failure?
    ensures Handler(id, f).Note?
    ensures NoticeText(Handler(id, f).notice) == "Error processing " + Numerals.IntToString(id) + ": " + f.name + " - " + f.detail
  {
  }

  /** What escapes the handler of `f`: nothing after a FloodWait, otherwise a failure of the notice's send. */
  function Escapes(f: Fault, rm: Remote): Option<Fault>
  {
    if f.FloodWait? then None else rm.reportFault
  }

  /** The handler runs after `t`, whose last call raised `f`. */
  function Recover(id: int, t: seq<Action>, f: Fault, rm: Remote): Outcome
  {
    Outcome(t + [Handler(id, f)], Escapes(f, rm))
  }

  /** Continue after the last action of `t`, a send whose result is `rm.sendFault`. */
  function AfterSend(id: int, t: seq<Action>, rm: Remote): Outcome
  {
    match rm.sendFault
    case Some(f) => Recover(id, t, f, rm)
    case None => Outcome(t, None)
  }

  /** The upload chosen for downloaded media: video, then document, then photo, else a notice. */
  function Upload(id: int, media: Media, path: string, caption: string): Action
  {
    if media.video then SendVideo(path, caption)
    else if media.document then SendDocument(path, caption)
    else if media.photo then SendPhoto(path, caption)
    else Note(Unsupported(id))
  }

  /** Remove the downloaded file when a path came back and it exists. */
  function Cleanup(id: int, t: seq<Action>, path: string, rm: Remote): Outcome
  {
    if path != "" && rm.fileExists then
      var t := t + [Remove(path)];
      match rm.removeFault
      case Some(f) => Recover(id, t, f, rm)
      case None => Outcome(t, None)
    else Outcome(t, None)
  }

  /** `process_and_forward(client, chat, id)`. */
  function Forward(chat: int, id: int, rm: Remote): (o: Outcome)
    ensures |o.trace| >= 2 && o.trace[0] == Fetch(chat, id)
    ensures o.escaped.Some? ==>
      o.escaped == rm.reportFault && IsFailureNote(o.trace[|o.trace| - 1]) && o.trace[|o.trace| - 1].notice.message == id
  {
    var t := [Fetch(chat, id)];
    match rm.fetched
    case Raised(f) => Recover(id, t, f, rm)
    case Returned(None) => AfterSend(id, t + [Note(NotFound(id))], rm)
    case Returned(Some(m)) =>
      if m.text != "" || m.caption != "" then
        var relay := SendText(if m.text != "" then m.text else m.caption, if m.text != "" then Some(id) else None);
        AfterSend(id, t + [relay], rm)
      else if m.media.Some? then
        var t := t + [Download];
        match rm.downloaded
        case Raised(f) => Recover(id, t, f, rm)
        case Returned(path) =>
          var t := t + [Upload(id, m.media.value, path, m.caption)];
          match rm.sendFault
          case Some(f) => Recover(id, t, f, rm)
          case None => Cleanup(id, t, path, rm)
      else AfterSend(id, t + [Note(NoContent(id))], rm)
  }

  /** The message that `rm` fetches, when the fetch returned one. */
  predicate Fetches(rm: Remote, m: SourceMessage) {
    rm.fetched == Returned(Some(m))
  }

  /** A message takes the media path when it has media and neither text nor caption. */
  predicate MediaOnly(m: SourceMessage) {
    m.text == "" && m.caption == "" && m.media.Some?
  }

  // ---- What one call does, case by case ----

  /**
   * The shape every call has: only the first action is a fetch, no action is a
   * pause or a command reply, and a handler action can only be the last one.
   */
  lemma ForwardShape(chat: int, id: int, rm: Remote)
    ensures var t := Forward(chat, id, rm).trace;
      && (forall i :: 1 <= i < |t| ==> !t[i].Fetch? && !t[i].Pace? && !t[i].Reply?)
      && (forall i :: 0 <= i < |t| - 1 ==> !IsBackoff(t[i]) && !IsFailureNote(t[i]))
  {
    ForwardQuiet(chat, id, rm);
    HandlerLast(chat, id, rm);
  }

  lemma ForwardQuiet(chat: int, id: int, rm: Remote)
    ensures var t := Forward(chat, id, rm).trace;
      forall i :: 1 <= i < |t| ==> !t[i].Fetch? && !t[i].Pace? && !t[i].Reply?
  {
    match rm.fetched
    case Raised(_) =>
    case Returned(None) =>
    case Returned(Some(m)) =>
  }

  lemma HandlerLast(chat: int, id: int, rm: Remote)
    ensures var t := Forward(chat, id, rm).trace;
      forall i :: 0 <= i < |t| - 1 ==> !IsBackoff(t[i]) && !IsFailureNote(t[i])
  {
    match rm.fetched
    case Raised(_) =>
    case Returned(None) =>
    case Returned(Some(m)) =>
      if m.text == "" && m.caption == "" && m.media.Some? {
        match rm.downloaded
        case Raised(_) =>
        case Returned(path) =>
      }
  }

  /** The message is fetched once and never again, whatever happens afterwards. */
  lemma FetchedOnce(chat: int, id: int, rm: Remote)
    ensures FetchedIds(Forward(chat, id, rm).trace) == [id]
    ensures Count(Forward(chat, id, rm).trace, IsFetch) == 1
  {
    ForwardShape(chat, id, rm);
    var t := Forward(chat, id, rm).trace;
    assert t == [t[0]] + t[1..];
    FetchedIdsNone(t[1..]);
    FetchedIdsAppend([t[0]], t[1..]);
    assert FetchedIds([t[0]]) == [id] by { assert [t[0]][..0] == []; }
    FetchedIdsCount(t);
  }

  /** A missing message gets only the "not found" notice: nothing is relayed or downloaded. */
  lemma AbsentMessage(chat: int, id: int, rm: Remote)
    requires rm.fetched == Returned(None)
    ensures var o := Forward(chat, id, rm);
      && o.trace[1] == Note(NotFound(id))
      && Count(o.trace, IsRelay) == 0
      && Count(o.trace, IsDownload) == 0
      && (rm.sendFault.None? ==> o == Outcome([Fetch(chat, id), Note(NotFound(id))], None))
  {
    ForwardShape(chat, id, rm);
    var t := Forward(chat, id, rm).trace;
    CountNone(t, IsRelay);
    CountNone(t, IsDownload);
  }

  /**
   * Text or a caption is relayed as exactly one text message, text in preference
   * to the caption, replying to the source id only when there is text; nothing is
   * downloaded, even when the message also carries media.
   */
  lemma TextMessage(chat: int, id: int, rm: Remote, m: SourceMessage)
    requires Fetches(rm, m) && (m.text != "" || m.caption != "")
    ensures var o := Forward(chat, id, rm);
      && o.trace[1].SendText?
      && o.trace[1].text != ""
      && (o.trace[1].text == m.text || o.trace[1].text == m.caption)
      && (m.text != "" ==> o.trace[1].text == m.text)
      && (o.trace[1].replyTo.Some? <==> m.text != "")
      && (o.trace[1].replyTo.Some? ==> o.trace[1].replyTo.value == id)
      && Count(o.trace, IsRelay) == 1
      && Count(o.trace, IsDownload) == 0
      && Count(o.trace, IsUpload) == 0
      && Count(o.trace, IsRemove) == 0
      && (rm.sendFault.None? ==> o == Outcome([Fetch(chat, id), o.trace[1]], None))
  {
    ForwardShape(chat, id, rm);
    var t := Forward(chat, id, rm).trace;
    CountExactlyOne(t, IsRelay, 1);
    CountNone(t, IsDownload);
    CountNone(t, IsUpload);
    CountNone(t, IsRemove);
  }

  /** A message with neither text, caption nor media gets only the "no content" notice. */
  lemma EmptyMessage(chat: int, id: int, rm: Remote, m: SourceMessage)
    requires Fetches(rm, m) && m.text == "" && m.caption == "" && m.media.None?
    ensures var o := Forward(chat, id, rm);
      && o.trace[1] == Note(NoContent(id))
      && Count(o.trace, IsRelay) == 0
      && Count(o.trace, IsDownload) == 0
      && (rm.sendFault.None? ==> o == Outcome([Fetch(chat, id), Note(NoContent(id))], None))
  {
    ForwardShape(chat, id, rm);
    var t := Forward(chat, id, rm).trace;
    CountNone(t, IsRelay);
    CountNone(t, IsDownload);
  }

  /** Media without text or caption is downloaded exactly once, right after the fetch, whatever its kind. */
  lemma MediaDownloadedFirst(chat: int, id: int, rm: Remote, m: SourceMessage)
    requires Fetches(rm, m) && MediaOnly(m)
    ensures var o := Forward(chat, id, rm);
      && o.trace[1] == Download
      && Count(o.trace, IsDownload) == 1
  {
    ForwardShape(chat, id, rm);
    CountExactlyOne(Forward(chat, id, rm).trace, IsDownload, 1);
  }

  /** A download that raises goes straight to the handler: nothing is uploaded or removed. */
  lemma DownloadRaised(chat: int, id: int, rm: Remote, m: SourceMessage)
    requires Fetches(rm, m) && MediaOnly(m) && rm.downloaded.Raised?
    ensures var o, f := Forward(chat, id, rm), rm.downloaded.fault;
      && o == Outcome([Fetch(chat, id), Download, Handler(id, f)], Escapes(f, rm))
      && |o.trace| == 3
      && Count(o.trace, IsRelay) == 0
      && Count(o.trace, IsRemove) == 0
  {
    ForwardShape(chat, id, rm);
    var t := Forward(chat, id, rm).trace;
    CountNone(t, IsRelay);
    CountNone(t, IsRemove);
  }

  /**
   * After a download that returned, one upload is chosen by priority video,
   * document, photo, with an empty caption; any other kind gets the
   * "unsupported media type" notice and nothing is relayed.
   */
  lemma MediaUploadPriority(chat: int, id: int, rm: Remote, m: SourceMessage)
    requires Fetches(rm, m) && MediaOnly(m) && rm.downloaded.Returned?
    ensures var o, path, kind := Forward(chat, id, rm), rm.downloaded.value, m.media.value;
      && (kind.video ==> o.trace[2] == SendVideo(path, ""))
      && (!kind.video && kind.document ==> o.trace[2] == SendDocument(path, ""))
      && (!kind.video && !kind.document && kind.photo ==> o.trace[2] == SendPhoto(path, ""))
      && (!kind.video && !kind.document && !kind.photo ==> o.trace[2] == Note(Unsupported(id)))
      && Count(o.trace, IsRelay) == (if kind.video || kind.document || kind.photo then 1 else 0)
  {
    ForwardShape(chat, id, rm);
    var t, kind := Forward(chat, id, rm).trace, m.media.value;
    assert t[2] == Upload(id, kind, rm.downloaded.value, m.caption);
    assert forall i :: 0 <= i < |t| && i != 2 ==> !IsRelay(t[i]);
    if kind.video || kind.document || kind.photo {
      CountExactlyOne(t, IsRelay, 2);
    } else {
      CountNone(t, IsRelay);
    }
  }

  /**
   * When the upload step completes, the downloaded file is removed exactly when
   * a path came back and the file exists, and the removal is the action after
   * the upload.
   */
  lemma CleanupAfterUpload(chat: int, id: int, rm: Remote, m: SourceMessage)
    requires Fetches(rm, m) && MediaOnly(m)
    requires rm.downloaded.Returned? && rm.sendFault.None?
    ensures var o := Forward(chat, id, rm);
      && (Count(o.trace, IsRemove) == 1 <==> rm.downloaded.value != "" && rm.fileExists)
      && (Count(o.trace, IsRemove) == 1 ==> o.trace[3] == Remove(rm.downloaded.value))
      && (Count(o.trace, IsRemove) == 0 ==> o.escaped.None? && |o.trace| == 3)
      && (rm.downloaded.value != "" && rm.fileExists && rm.removeFault.None? ==>
          o == Outcome([Fetch(chat, id), Download, Upload(id, m.media.value, rm.downloaded.value, ""), Remove(rm.downloaded.value)], None))
      && (!(rm.downloaded.value != "" && rm.fileExists) ==>
          o == Outcome([Fetch(chat, id), Download, Upload(id, m.media.value, rm.downloaded.value, "")], None))
  {
    ForwardShape(chat, id, rm);
    var t := Forward(chat, id, rm).trace;
    if rm.downloaded.value != "" && rm.fileExists {
      CountExactlyOne(t, IsRemove, 3);
    } else {
      CountNone(t, IsRemove);
    }
  }

  /** A removal happens only after a download that returned a path and an upload step that did not raise. */
  lemma RemoveOnlyAfterCompletion(chat: int, id: int, rm: Remote)
    ensures Count(Forward(chat, id, rm).trace, IsRemove) > 0 ==>
      && rm.fetched.Returned? && rm.fetched.value.Some? && MediaOnly(rm.fetched.value.value)
      && rm.downloaded.Returned? && rm.downloaded.value != "" && rm.fileExists
      && rm.sendFault.None?
  {
    ForwardShape(chat, id, rm);
    var t := Forward(chat, id, rm).trace;
    if !(rm.fetched.Returned? && rm.fetched.value.Some? && MediaOnly(rm.fetched.value.value)
         && rm.downloaded.Returned? && rm.downloaded.value != "" && rm.fileExists && rm.sendFault.None?) {
      CountNone(t, IsRemove);
    }
  }

  /**
   * At most one handler runs, and as the last action: a FloodWait sleeps and is
   * swallowed; any other exception posts one "Error processing" notice for this
   * id, and only a failure of that notice escapes.
   */
  lemma ExceptionPolicy(chat: int, id: int, rm: Remote)
    ensures var o := Forward(chat, id, rm);
      && Count(o.trace, IsBackoff) + Count(o.trace, IsFailureNote) <= 1
      && (Count(o.trace, IsBackoff) == 1 ==> o.escaped.None? && o.trace[|o.trace| - 1].Backoff?)
      && (Count(o.trace, IsFailureNote) == 1 ==>
          o.trace[|o.trace| - 1].Note? && o.trace[|o.trace| - 1].notice.Failed? && o.trace[|o.trace| - 1].notice.message == id
          && o.escaped == rm.reportFault)
      && (o.escaped.Some? ==> Count(o.trace, IsFailureNote) == 1)
  {
    ForwardShape(chat, id, rm);
    var o := Forward(chat, id, rm);
    CountAtEnd(o.trace, IsBackoff);
    CountAtEnd(o.trace, IsFailureNote);
  }

  // ---- What each raising call leads to ----

  /** A fetch that raises goes straight to the handler. */
  lemma FetchRaised(chat: int, id: int, rm: Remote, f: Fault)
    requires rm.fetched == Raised(f)
    ensures Forward(chat, id, rm) == Outcome([Fetch(chat, id), Handler(id, f)], Escapes(f, rm))
    ensures f.FloodWait? ==> Forward(chat, id, rm) == Outcome([Fetch(chat, id), Backoff(f.seconds)], None)
    ensures f.Failure? ==> Forward(chat, id, rm) == Outcome([Fetch(chat, id), Note(Failed(id, f.name, f.detail))], rm.reportFault)
  {
  }

  /**
   * When the one outbound send of a fetch that returned raises, other than the
   * upload of downloaded media (the not-found notice, the text relay or the
   * no-content notice), the handler follows that send.
   */
  lemma SendRaised(chat: int, id: int, rm: Remote, f: Fault)
    requires rm.fetched.Returned? && rm.sendFault == Some(f)
    requires rm.fetched.value.Some? ==> !MediaOnly(rm.fetched.value.value)
    ensures var o := Forward(chat, id, rm);
      && (o.trace[1].SendText? || o.trace[1].Note?)
      && o == Outcome([Fetch(chat, id), o.trace[1], Handler(id, f)], Escapes(f, rm))
  {
  }

  /** An upload (or the unsupported-media notice) that raises is followed by the handler, and the file is not removed. */
  lemma UploadRaised(chat: int, id: int, rm: Remote, m: SourceMessage, path: string, f: Fault)
    requires Fetches(rm, m) && MediaOnly(m)
    requires rm.downloaded == Returned(path) && rm.sendFault == Some(f)
    ensures Forward(chat, id, rm) ==
      Outcome([Fetch(chat, id), Download, Upload(id, m.media.value, path, ""), Handler(id, f)], Escapes(f, rm))
  {
  }

  /** A removal of the downloaded file that raises is followed by the handler. */
  lemma RemoveRaised(chat: int, id: int, rm: Remote, m: SourceMessage, path: string, f: Fault)
    requires Fetches(rm, m) && MediaOnly(m)
    requires rm.downloaded == Returned(path) && path != "" && rm.fileExists
    requires rm.sendFault.None? && rm.removeFault == Some(f)
    ensures Forward(chat, id, rm) ==
      Outcome([Fetch(chat, id), Download, Upload(id, m.media.value, path, ""), Remove(path), Handler(id, f)], Escapes(f, rm))
  {
  }

  /** A FloodWait on the fetch sleeps its duration and returns: no notice, no retry. */
  lemma FloodWaitOnFetch(chat: int, id: int, rm: Remote, seconds: nat, detail: string)
    requires rm.fetched == Raised(FloodWait(seconds, detail))
    ensures Forward(chat, id, rm) == Outcome([Fetch(chat, id), Backoff(seconds)], None)
  {
  }

  /** Forwarding never paces: pacing belongs to the batch loop. */
  lemma NoPacing(chat: int, id: int, rm: Remote)
    ensures PaceTotal(Forward(chat, id, rm).trace) == 0
  {
    ForwardShape(chat, id, rm);
    var t := Forward(chat, id, rm).trace;
    PaceTotalNone(t);
  }
}

=== FILE: link.dfy ===
/**
 * `parse_message_link`: turns the path of a `https://t.me/c/<channel>/<message>`
 * link into a (channel id, message id) pair. `urlparse` reduces the URL to its
 * path, or raises; scheme and host play no other part.
 */
module Link {
  import opened Basics
  import opened Numerals
  import opened Paths

  /** A resolved link: the chat to read from and the message in it. */
  datatype Locator = Locator(channel: int, message: int)

  /** The ValueError the parser raises, by cause. */
  datatype ParseError =
    | BadShape                      // not three segments, or the first is not `c`
    | BadLiteral(literal: string)   // `int()` refused this text

  /**
   * `parse_message_link(link)` given what `urlparse(link)` did: returned the
   * path, or raised a ValueError whose text is the `Err`. Failures are `str(e)`
   * of the raised ValueError.
   */
  function ParseMessageLink(url: Result<string, string>): (r: Result<Locator, string>)
    ensures url.Err? ==> r == Err(url.error)
    ensures url.Ok? ==> (r.Ok? <==> ParseLink(url.value).Ok?)
    ensures r.Ok? ==> url.Ok? && r.value == ParseLink(url.value).value && r.value.channel <= -100
    ensures url.Ok? && r.Err? ==> r.error == ErrorText(ParseLink(url.value).error)
  {
    match url
    case Err(text) => Err(text)
    case Ok(path) =>
      match ParseLink(path)
      case Err(e) => Err(ErrorText(e))
      case Ok(loc) => Ok(loc)
  }

  /** `str(e)` of the raised ValueError, which the commands reply verbatim. */
  function ErrorText(e: ParseError): string
  {
    match e
    case BadShape => "Invalid Telegram link format.\nUse: https://t.me/c/xxxxxxxxxx/123"
    case BadLiteral(s) => "invalid literal for int() with base 10: '" + s + "'"
  }

  /** The text handed to `int()` for the channel: the segment behind a `-100` prefix. */
  function ChannelLiteral(segment: string): string
  {
    "-100" + segment
  }

  /** The channel id denoted by a digit segment: minus the number spelled `100` followed by the segment. */
  function ChannelId(segment: string): int
    requires IsDigits(segment)
  {
    -(100 * Pow10(|segment|) + DigitsValue(segment))
  }

  /**
   * The parser: strip slashes, split on `/`, demand `c/<channel>/<message>`,
   * read the message id first and the `-100`-prefixed channel second.
   */
  function ParseLink(path: string): (r: Result<Locator, ParseError>)
    ensures r.Ok? ==> r.value.channel <= -100
  {
    var segments := Split(Strip(path));
    if |segments| != 3 || segments[0] != "c" then Err(BadShape)
    else
      match ParseInt(segments[2])
      case None => Err(BadLiteral(segments[2]))
      case Some(message) =>
        var literal := ChannelLiteral(segments[1]);
        match ParseInt(literal)
        case None => Err(BadLiteral(literal))
        case Some(channel) =>
          ChannelLiteralValue(segments[1]);
          Ok(Locator(channel, message))
  }

  /** `int("-100" + s)` succeeds exactly for digit segments and then yields `ChannelId(s)`. */
  lemma ChannelLiteralValue(segment: string)
    ensures ParseInt(ChannelLiteral(segment)).Some? <==> IsDigits(segment)
    ensures IsDigits(segment) ==> ParseInt(ChannelLiteral(segment)) == Some(ChannelId(segment))
  {
    var literal := ChannelLiteral(segment);
    assert literal[1..] == "100" + segment;
    assert literal[0] == '-' && !IsDigit(literal[0]);
    if IsDigits(segment) {
      HundredPrefix(segment);
    } else {
      var i :| 0 <= i < |segment| && !IsDigit(segment[i]);
      assert literal[1..][3 + i] == segment[i];
    }
  }

  /** The digits `100` followed by a digit segment spell minus its channel id. */
  lemma HundredPrefix(segment: string)
    requires IsDigits(segment)
    ensures var x := "100" + segment;
      && IsDigits(x) && |x| >= 1 && x[0] == '1' && x[3..] == segment
      && DigitsValue(x) == -ChannelId(segment)
  {
    DigitsValueAppend("100", segment);
    assert DigitsValue("100") == 100 by {
      assert "100"[..2] == "10" && "10"[..1] == "1" && "1"[..0] == "";
    }
  }

  /** Distinct digit segments name distinct channels: the `-100` prefix keeps leading zeros significant. */
  lemma ChannelIdInjective(a: string, b: string)
    requires IsDigits(a) && IsDigits(b)
    ensures ChannelId(a) == ChannelId(b) <==> a == b
  {
    if ChannelId(a) == ChannelId(b) {
      HundredPrefix(a);
      HundredPrefix(b);
      CanonicalDigitsInjective("100" + a, "100" + b);
    }
  }

  /** The path that a well-formed link to (channel segment, message id) carries. */
  function LinkPath(segment: string, message: int): string
  {
    "/c/" + segment + "/" + IntToString(message)
  }

  /**
   * Every path of the shape `c/<digits>/<integer>`, with any number of slashes
   * around it, parses; the channel is `ChannelId` of the segment and the message
   * the integer value.
   */
  lemma {:induction false} ParseAccepts(lead: nat, segment: string, message: string, trail: nat)
    requires IsDigits(segment) && IsIntLiteral(message)
    ensures ParseLink(Slashes(lead) + "c/" + segment + "/" + message + Slashes(trail))
      == Ok(Locator(ChannelId(segment), ParseInt(message).value))
  {
    assert Slash !in segment by { assert !IsDigit(Slash); }
    LiteralHasNoSlash(message);
    ShapeSegments(lead, segment, message, trail);
    ChannelLiteralValue(segment);
  }

  lemma LiteralHasNoSlash(message: string)
    requires IsIntLiteral(message)
    ensures Slash !in message && message != []
  {
    assert !IsDigit(Slash);
    if !IsDigits(message) {
      assert forall i :: 1 <= i < |message| ==> message[i] == message[1..][i - 1];
    }
  }

  /** `LinkPath` and `ParseLink` round-trip for digit channel segments. */
  lemma LinkPathRoundTrip(segment: string, message: int)
    requires IsDigits(segment)
    ensures ParseLink(LinkPath(segment, message)) == Ok(Locator(ChannelId(segment), message))
  {
    assert LinkPath(segment, message) == Slashes(1) + "c/" + segment + "/" + IntToString(message) + Slashes(0);
    ParseAccepts(1, segment, IntToString(message), 0);
  }

  /**
   * Every accepted path has that shape: after stripping it is `c/<digits>/<integer>`
   * and the locator is read from those two segments.
   */
  lemma ParseAcceptsOnly(path: string) returns (segment: string, message: string)
    requires ParseLink(path).Ok?
    ensures Strip(path) == "c/" + segment + "/" + message
    ensures IsDigits(segment) && IsIntLiteral(message)
    ensures ParseLink(path) == Ok(Locator(ChannelId(segment), ParseInt(message).value))
  {
    var segments := Split(Strip(path));
    AcceptedSegments(path);
    segment, message := segments[1], segments[2];
    ShapeIsJoin(segment, message);
    assert segments == ["c", segment, message];
  }

  /** What acceptance says about the segments: `c`, digits, an integer literal. */
  lemma AcceptedSegments(path: string)
    requires ParseLink(path).Ok?
    ensures var segments := Split(Strip(path));
      && |segments| == 3 && segments[0] == "c"
      && IsDigits(segments[1]) && IsIntLiteral(segments[2])
      && ParseLink(path) == Ok(Locator(ChannelId(segments[1]), ParseInt(segments[2]).value))
  {
    ChannelLiteralValue(Split(Strip(path))[1]);
  }

  /** A stripped path with other than two slashes has the wrong number of segments. */
  lemma RejectsSegmentCount(path: string)
    requires Occurrences(Strip(path), Slash) != 2
    ensures ParseLink(path) == Err(BadShape)
  {
  }

  /** Three segments whose first is not `c` are the wrong shape, whatever the other two hold. */
  lemma RejectsFirstSegment(path: string)
    requires |Split(Strip(path))| == 3 && Split(Strip(path))[0] != "c"
    ensures ParseLink(path) == Err(BadShape)
  {
  }

  /** A path with the channel handle `s` in place of `c` is the wrong shape. */
  lemma RejectsHandleLink()
    ensures ParseLink("/s/chan/5") == Err(BadShape)
  {
    HandleStrip();
    HandleSplit();
    RejectsFirstSegment("/s/chan/5");
  }

  lemma HandleStrip()
    ensures Strip("/s/chan/5") == "s/chan/5"
  {
    assert "/s/chan/5" == Slashes(1) + "s/chan/5" + Slashes(0);
    StripWrapped(1, "s/chan/5", 0);
  }

  lemma HandleSplit()
    ensures Split("s/chan/5") == ["s", "chan", "5"]
  {
    var parts := ["s", "chan", "5"];
    JoinThree("s", "chan", "5");
    assert "s/chan/5" == Join(parts);
    assert forall i :: 0 <= i < |parts| ==> Slash !in parts[i];
    SplitJoin(parts);
  }

  /** A message segment that is not an integer literal is reported, even when the channel is bad too. */
  lemma RejectsMessageLiteral(lead: nat, segment: string, message: string, trail: nat)
    requires Slash !in segment && Slash !in message && message != []
    requires !IsIntLiteral(message)
    ensures ParseLink(Slashes(lead) + "c/" + segment + "/" + message + Slashes(trail)) == Err(BadLiteral(message))
  {
    ShapeSegments(lead, segment, message, trail);
  }

  /** A valid message segment behind a non-digit channel segment reports the `-100`-prefixed literal. */
  lemma RejectsChannelLiteral(lead: nat, segment: string, message: string, trail: nat)
    requires Slash !in segment && IsIntLiteral(message)
    requires !IsDigits(segment)
    ensures ParseLink(Slashes(lead) + "c/" + segment + "/" + message + Slashes(trail)) == Err(BadLiteral("-100" + segment))
  {
    LiteralHasNoSlash(message);
    ShapeSegments(lead, segment, message, trail);
    ChannelLiteralValue(segment);
  }

  /** The text `c/<segment>/<message>` is the three segments joined by slashes. */
  lemma ShapeIsJoin(segment: string, message: string)
    ensures "c/" + segment + "/" + message == Join(["c", segment, message])
  {
    assert "c/" == "c" + [Slash];
    assert "/" == [Slash];
    JoinThree("c", segment, message);
  }

  /** Slashes around `c/<segment>/<message>` split away into the three segments. */
  lemma ShapeSegments(lead: nat, segment: string, message: string, trail: nat)
    requires Slash !in segment && Slash !in message && message != []
    ensures Split(Strip(Slashes(lead) + "c/" + segment + "/" + message + Slashes(trail))) == ["c", segment, message]
  {
    StripShape(lead, segment, message, trail);
    SplitShape(segment, message);
  }

  lemma StripShape(lead: nat, segment: string, message: string, trail: nat)
    requires message != [] && message[|message| - 1] != Slash
    ensures Strip(Slashes(lead) + "c/" + segment + "/" + message + Slashes(trail)) == "c/" + segment + "/" + message
  {
    var q := "c/" + segment + "/" + message;
    assert q[0] == 'c' && q[|q| - 1] == message[|message| - 1];
    assert Slashes(lead) + "c/" + segment + "/" + message + Slashes(trail) == Slashes(lead) + q + Slashes(trail);
    StripWrapped(lead, q, trail);
  }

  lemma SplitShape(segment: string, message: string)
    requires Slash !in segment && Slash !in message
    ensures Split("c/" + segment + "/" + message) == ["c", segment, message]
  {
    var parts := ["c", segment, message];
    assert forall i :: 0 <= i < |parts| ==> Slash !in parts[i] by {
      assert parts[0] == "c" && parts[1] == segment && parts[2] == message;
    }
    ShapeIsJoin(segment, message);
    SplitJoin(parts);
  }

  /** An empty channel segment is accepted and reads as channel -100. */
  lemma EmptyChannelSegment()
    ensures ParseLink("/c//5") == Ok(Locator(-100, 5))
  {
    assert DigitsValue("5") == 5 by { DigitsValueSnoc("", '5'); }
    assert "/c//5" == Slashes(1) + "c/" + "" + "/" + "5" + Slashes(0);
    ParseAccepts(1, "", "5", 0);
  }

  /** The documented example: `/c/111111111/123` names channel -100111111111, message 123. */
  lemma DocumentedExample()
    ensures ParseLink("/c/111111111/123") == Ok(Locator(-100111111111, 123))
  {
    ExampleShape();
    ParseAccepts(1, "111111111", "123", 0);
    ExampleChannel();
    ExampleMessage();
  }

  lemma ExampleShape()
    ensures "/c/111111111/123" == Slashes(1) + "c/" + "111111111" + "/" + "123" + Slashes(0)
  {
  }

  lemma ExampleChannel()
    ensures ChannelId("111111111") == -100111111111
  {
    NineOnes();
    assert Pow10(9) == 1000000000;
  }

  lemma ExampleMessage()
    ensures ParseInt("123") == Some(123)
  {
    assert DigitsValue("123") == 123 by {
      assert "123"[..2] == "12" && "12"[..1] == "1" && "1"[..0] == "";
    }
  }

  lemma NineOnes()
    ensures DigitsValue("111111111") == 111111111
  {
    var s: string := "";
    DigitsValueSnoc(s, '1');
    s := s + ['1'];
    assert DigitsValue(s) == 1;
    DigitsValueSnoc(s, '1');
    s := s + ['1'];
    assert DigitsValue(s) == 11;
    DigitsValueSnoc(s, '1');
    s := s + ['1'];
    assert DigitsValue(s) == 111;
    DigitsValueSnoc(s, '1');
    s := s + ['1'];
    assert DigitsValue(s) == 1111;
    DigitsValueSnoc(s, '1');
    s := s + ['1'];
    assert DigitsValue(s) == 11111;
    DigitsValueSnoc(s, '1');
    s := s + ['1'];
    assert DigitsValue(s) == 111111;
    DigitsValueSnoc(s, '1');
    s := s + ['1'];
    assert DigitsValue(s) == 1111111;
    DigitsValueSnoc(s, '1');
    s := s + ['1'];
    assert DigitsValue(s) == 11111111;
    DigitsValueSnoc(s, '1');
    s := s + ['1'];
    assert DigitsValue(s) == 111111111;
    assert s == "111111111";
  }
}

=== FILE: numerals.dfy ===
/**
 * Decimal text for integers: the subset of Python's `int(str)` the forwarder
 * relies on (an optional sign followed by ASCII digits) and the decimal
 * rendering used by f-strings such as `f"{msg_id}"`.
 */
module Numerals {
  import opened Basics

  predicate IsDigit(c: char) {
    '0' <= c <= '9'
  }

  predicate IsDigits(s: string) {
    forall i :: 0 <= i < |s| ==> IsDigit(s[i])
  }

  function DigitValue(c: char): (d: nat)
    requires IsDigit(c)
    ensures d < 10
  {
    (c as int) - ('0' as int)
  }

  function DigitChar(d: nat): (c: char)
    requires d < 10
    ensures IsDigit(c) && DigitValue(c) == d
  {
    (('0' as int) + d) as char
  }

  function Pow10(n: nat): (p: nat)
    ensures p >= 1
  {
    if n == 0 then 1 else 10 * Pow10(n - 1)
  }

  /** The value of a digit string read in base 10; the empty string reads as 0. */
  function DigitsValue(s: string): (v: nat)
    requires IsDigits(s)
    ensures v < Pow10(|s|)
  {
    if |s| == 0 then 0 else DigitsValue(s[..|s| - 1]) * 10 + DigitValue(s[|s| - 1])
  }

  /** Appending a digit multiplies the value by ten and adds the digit. */
  lemma DigitsValueSnoc(s: string, c: char)
    requires IsDigits(s) && IsDigit(c)
    ensures IsDigits(s + [c]) && DigitsValue(s + [c]) == DigitsValue(s) * 10 + DigitValue(c)
  {
    assert (s + [c])[..|s|] == s;
  }

  /** Reading the concatenation of two digit strings shifts the first by the length of the second. */
  lemma {:induction false} DigitsValueAppend(a: string, b: string)
    requires IsDigits(a) && IsDigits(b)
    ensures IsDigits(a + b)
    ensures DigitsValue(a + b) == DigitsValue(a) * Pow10(|b|) + DigitsValue(b)
    decreases |b|
  {
    assert IsDigits(a + b) by {
      forall i | 0 <= i < |a + b| ensures IsDigit((a + b)[i]) {
        if i < |a| { assert (a + b)[i] == a[i]; } else { assert (a + b)[i] == b[i - |a|]; }
      }
    }
    if |b| == 0 {
      assert a + b == a;
    } else {
      var b' := b[..|b| - 1];
      var d := DigitValue(b[|b| - 1]);
      assert (a + b)[..|a + b| - 1] == a + b';
      assert (a + b)[|a + b| - 1] == b[|b| - 1];
      DigitsValueAppend(a, b');
      assert DigitsValue(a + b) == DigitsValue(a + b') * 10 + d;
      assert DigitsValue(b) == DigitsValue(b') * 10 + d;
      assert Pow10(|b|) == 10 * Pow10(|b'|);
      ShiftArithmetic(DigitsValue(a), Pow10(|b'|), DigitsValue(b'), d);
    }
  }

  lemma ShiftArithmetic(x: int, p: int, y: int, d: int)
    ensures (x * p + y) * 10 + d == x * (10 * p) + (y * 10 + d)
  {
  }

  /** A digit string that does not start with '0' is at least 10^(length-1). */
  lemma {:induction false} LeadingDigitBound(s: string)
    requires IsDigits(s) && |s| >= 1 && s[0] != '0'
    ensures DigitsValue(s) >= Pow10(|s| - 1)
    decreases |s|
  {
    if |s| > 1 {
      var s' := s[..|s| - 1];
      assert s'[0] == s[0];
      LeadingDigitBound(s');
    }
  }

  /** Digit strings without a leading zero are determined by their value. */
  lemma {:induction false} CanonicalDigitsInjective(x: string, y: string)
    requires IsDigits(x) && IsDigits(y) && |x| >= 1 && |y| >= 1
    requires x[0] != '0' && y[0] != '0'
    requires DigitsValue(x) == DigitsValue(y)
    ensures x == y
    decreases |x|
  {
    LeadingDigitBound(x);
    LeadingDigitBound(y);
    if |x| < |y| {
      Pow10Monotone(|x|, |y| - 1);
      assert false;
    } else if |y| < |x| {
      Pow10Monotone(|y|, |x| - 1);
      assert false;
    }
    var x', y' := x[..|x| - 1], y[..|y| - 1];
    var dx, dy := DigitValue(x[|x| - 1]), DigitValue(y[|y| - 1]);
    assert DigitsValue(x') * 10 + dx == DigitsValue(y') * 10 + dy;
    LastDigitUnique(DigitsValue(x'), dx, DigitsValue(y'), dy);
    assert x[|x| - 1] == y[|y| - 1];
    if |x| > 1 {
      assert x'[0] == x[0] && y'[0] == y[0];
      CanonicalDigitsInjective(x', y');
    }
    assert x == x' + [x[|x| - 1]] && y == y' + [y[|y| - 1]];
  }

  lemma LastDigitUnique(a: nat, d: nat, b: nat, e: nat)
    requires d < 10 && e < 10
    requires a * 10 + d == b * 10 + e
    ensures a == b && d == e
  {
  }

  lemma {:induction false} Pow10Monotone(m: nat, n: nat)
    requires m <= n
    ensures Pow10(m) <= Pow10(n)
    decreases n - m
  {
    if m < n {
      Pow10Monotone(m, n - 1);
    }
  }

  /** Decimal digits of `n`, most significant first, without leading zeros. */
  function NatToDigits(n: nat): (s: string)
    ensures IsDigits(s) && |s| >= 1
    ensures DigitsValue(s) == n
    ensures s[0] == '0' ==> s == "0"
    decreases n
  {
    if n < 10 then [DigitChar(n)]
    else
      var p := NatToDigits(n / 10);
      var s := p + [DigitChar(n % 10)];
      assert s[..|s| - 1] == p;
      s
  }

  /** Python's `str(i)` for an int: decimal digits with a leading '-' for negatives. */
  function IntToString(i: int): (s: string)
    ensures ParseInt(s) == Some(i)
    ensures |s| >= 1 && (s[0] == '-' <==> i < 0)
    ensures var digits := if i < 0 then s[1..] else s;
      |digits| >= 1 && IsDigits(digits) && (digits[0] == '0' ==> digits == "0")
  {
    if i < 0 then
      var s := "-" + NatToDigits(-i);
      assert s[1..] == NatToDigits(-i);
      s
    else NatToDigits(i)
  }

  /** The integer literals accepted by the model of `int(str)`: an optional sign and one or more ASCII digits. */
  predicate IsIntLiteral(s: string) {
    || (|s| >= 1 && IsDigits(s))
    || (|s| >= 2 && (s[0] == '+' || s[0] == '-') && IsDigits(s[1..]))
  }

  /** Python's `int(s)` restricted to ASCII: `None` stands for the raised ValueError. */
  function ParseInt(s: string): (r: Option<int>)
    ensures r.Some? <==> IsIntLiteral(s)
    ensures r.Some? && |s| >= 1 && s[0] == '-' ==> r.value <= 0
    ensures r.Some? && |s| >= 1 && s[0] != '-' ==> r.value >= 0
  {
    if |s| >= 1 && IsDigits(s) then Some(DigitsValue(s))
    else if |s| >= 2 && s[0] == '+' && IsDigits(s[1..]) then Some(DigitsValue(s[1..]))
    else if |s| >= 2 && s[0] == '-' && IsDigits(s[1..]) then Some(0 - DigitsValue(s[1..]))
    else None
  }

  /** A `+` sign changes nothing: `int("+" + d) == int(d)` for a digit string `d`. */
  lemma ParseIntPlus(d: string)
    requires |d| >= 1 && IsDigits(d)
    ensures ParseInt("+" + d) == ParseInt(d)
  {
    assert ("+" + d)[1..] == d;
  }

  /** A `-` sign negates: `int("-" + d) == -int(d)` for a digit string `d`. */
  lemma ParseIntMinus(d: string)
    requires |d| >= 1 && IsDigits(d)
    ensures ParseInt("-" + d).Some? && ParseInt("-" + d).value == -ParseInt(d).value
  {
    assert ("-" + d)[1..] == d;
  }

  /** A leading zero changes nothing: `int("0" + d) == int(d)` for a digit string `d`. */
  lemma ParseIntLeadingZero(d: string)
    requires |d| >= 1 && IsDigits(d)
    ensures ParseInt("0" + d) == ParseInt(d)
  {
    DigitsValueAppend("0", d);
    assert DigitsValue("0") == 0 by { assert "0"[..0] == ""; }
  }
}

=== FILE: paths.dfy ===
/**
 * The two string operations the link parser applies to a URL path:
 * Python's `str.strip('/')` and `str.split('/')`.
 */
module Paths {

  const Slash: char := '/'

  /** A run of `n` slashes. */
  function Slashes(n: nat): (s: string)
    ensures |s| == n && forall i :: 0 <= i < n ==> s[i] == Slash
  {
    seq(n, _ => Slash)
  }

  /** Number of occurrences of `c` in `s`. */
  function Occurrences(s: string, c: char): nat
  {
    if |s| == 0 then 0 else (if s[0] == c then 1 else 0) + Occurrences(s[1..], c)
  }

  /** `s.lstrip('/')`: the longest suffix of `s` that does not start with a slash. */
  function TrimLeading(s: string): (r: string)
    ensures |r| <= |s| && r == s[|s| - |r|..]
    ensures forall i :: 0 <= i < |s| - |r| ==> s[i] == Slash
    ensures r == [] || r[0] != Slash
  {
    if |s| > 0 && s[0] == Slash then TrimLeading(s[1..]) else s
  }

  /** `s.rstrip('/')`: the longest prefix of `s` that does not end with a slash. */
  function TrimTrailing(s: string): (r: string)
    ensures |r| <= |s| && r == s[..|r|]
    ensures forall i :: |r| <= i < |s| ==> s[i] == Slash
    ensures r == [] || r[|r| - 1] != Slash
  {
    if |s| > 0 && s[|s| - 1] == Slash then TrimTrailing(s[..|s| - 1]) else s
  }

  /** `s.strip('/')`: neither end of the result is a slash; `StripWrapped` says exactly what is removed. */
  function Strip(s: string): (r: string)
    ensures |r| <= |s|
    ensures r == [] || (r[0] != Slash && r[|r| - 1] != Slash)
  {
    var r := TrimTrailing(TrimLeading(s));
    assert r == [] || r[0] == TrimLeading(s)[0];
    r
  }

  /** Slashes added around a path without edge slashes are exactly what `Strip` removes. */
  lemma {:induction false} StripWrapped(a: nat, q: string, b: nat)
    requires q == [] || (q[0] != Slash && q[|q| - 1] != Slash)
    ensures Strip(Slashes(a) + q + Slashes(b)) == q
  {
    var s := Slashes(a) + q + Slashes(b);
    assert s == Slashes(a) + (q + Slashes(b));
    if q == [] {
      assert s == Slashes(a + b);
      TrimLeadingSlashes(a + b, []);
      assert Slashes(a + b) + [] == Slashes(a + b);
    } else {
      TrimLeadingSlashes(a, q + Slashes(b));
      TrimTrailingSlashes(q, b);
    }
  }

  lemma {:induction false} TrimLeadingSlashes(a: nat, s: string)
    requires s == [] || s[0] != Slash
    ensures TrimLeading(Slashes(a) + s) == s
    decreases a
  {
    if a > 0 {
      assert (Slashes(a) + s)[1..] == Slashes(a - 1) + s;
      TrimLeadingSlashes(a - 1, s);
    } else {
      assert Slashes(a) + s == s;
    }
  }

  lemma {:induction false} TrimTrailingSlashes(q: string, b: nat)
    requires q == [] || q[|q| - 1] != Slash
    ensures TrimTrailing(q + Slashes(b)) == q
    decreases b
  {
    if b > 0 {
      assert (q + Slashes(b))[..|q| + b - 1] == q + Slashes(b - 1);
      TrimTrailingSlashes(q, b - 1);
    } else {
      assert q + Slashes(b) == q;
    }
  }

  /** Python's `'/'.join(parts)`. */
  function Join(parts: seq<string>): string
    requires |parts| >= 1
  {
    if |parts| == 1 then parts[0] else parts[0] + ([Slash] + Join(parts[1..]))
  }

  /** Joining three parts puts a slash between neighbours. */
  lemma JoinThree(a: string, b: string, c: string)
    ensures Join([a, b, c]) == a + [Slash] + b + [Slash] + c
  {
    assert [a, b, c][1..] == [b, c];
    assert [b, c][1..] == [c];
    assert Join([b, c]) == b + ([Slash] + c);
    assert Join([a, b, c]) == a + ([Slash] + (b + ([Slash] + c)));
  }

  /**
   * Python's `s.split('/')`: the pieces between slashes, in order. The empty
   * string splits into one empty piece, and adjacent slashes give empty pieces.
   */
  function Split(s: string): (parts: seq<string>)
    ensures |parts| == Occurrences(s, Slash) + 1
    ensures forall i :: 0 <= i < |parts| ==> Slash !in parts[i]
    ensures Join(parts) == s
  {
    if |s| == 0 then [[]]
    else
      var rest := Split(s[1..]);
      if s[0] == Slash then
        assert s == [Slash] + s[1..];
        [[]] + rest
      else
        var parts := [[s[0]] + rest[0]] + rest[1..];
        assert Join(parts) == [s[0]] + Join(rest) by { JoinExtendHead([s[0]], rest); }
        assert s == [s[0]] + s[1..];
        parts
  }

  lemma JoinExtendHead(x: string, parts: seq<string>)
    requires |parts| >= 1
    ensures Join([x + parts[0]] + parts[1..]) == x + Join(parts)
  {
    if |parts| == 1 {
      assert [x + parts[0]] + parts[1..] == [x + parts[0]];
    } else {
      var tail := parts[1..];
      JoinCons(x + parts[0], tail);
      JoinCons(parts[0], tail);
      assert [parts[0]] + tail == parts;
      SeqAssoc(x, parts[0], [Slash] + Join(tail));
    }
  }

  /** A part in front of at least one more is followed by a slash. */
  lemma JoinCons(head: string, tail: seq<string>)
    requires |tail| >= 1
    ensures Join([head] + tail) == head + ([Slash] + Join(tail))
  {
    assert ([head] + tail)[1..] == tail;
  }

  lemma SeqAssoc(a: string, b: string, c: string)
    ensures (a + b) + c == a + (b + c)
  {
  }

  /** A piece without slashes followed by a slash splits off as the first part. */
  lemma {:induction false} SplitAfterPiece(x: string, y: string)
    requires Slash !in x
    ensures Split(x + [Slash] + y) == [x] + Split(y)
    decreases |x|
  {
    if |x| == 0 {
      assert x + [Slash] + y == [Slash] + y;
      assert ([Slash] + y)[1..] == y;
    } else {
      assert (x + [Slash] + y)[1..] == x[1..] + [Slash] + y;
      assert Slash !in x[1..] by { assert forall c :: c in x[1..] ==> c in x; }
      SplitAfterPiece(x[1..], y);
      assert [x[0]] + x[1..] == x;
    }
  }

  /** A string without slashes splits into itself. */
  lemma {:induction false} SplitPiece(x: string)
    requires Slash !in x
    ensures Split(x) == [x]
    decreases |x|
  {
    if |x| > 0 {
      assert Slash !in x[1..] by { assert forall c :: c in x[1..] ==> c in x; }
      SplitPiece(x[1..]);
      assert [x[0]] + x[1..] == x;
    }
  }

  /** `split` undoes `join` whenever no part contains the separator. */
  lemma {:induction false} SplitJoin(parts: seq<string>)
    requires |parts| >= 1
    requires forall i :: 0 <= i < |parts| ==> Slash !in parts[i]
    ensures Split(Join(parts)) == parts
    decreases |parts|
  {
    if |parts| == 1 {
      SplitPiece(parts[0]);
    } else {
      SplitJoin(parts[1..]);
      SplitAfterPiece(parts[0], Join(parts[1..]));
      assert [parts[0]] + parts[1..] == parts;
    }
  }
}

=== FILE: trace.dfy ===
/**
 * The observable behaviour of the forwarder: every call it makes on the chat
 * client, the file system or the clock, recorded in order. Remote calls are
 * recorded when they are attempted, whether or not they then raise.
 */
module Trace {
  import opened Basics
  import Numerals

  /** An exception raised by a remote call or by the file system. */
  datatype Fault =
    | FloodWait(seconds: nat, detail: string)                    // errors.FloodWait, `e.value` seconds
    | Failure(name: string, detail: string, isValueError: bool)  // any other exception: class name, `str(e)`, whether it is a ValueError

  /** What a remote call did: returned a value or raised. */
  datatype Step<+T> = Returned(value: T) | Raised(fault: Fault)

  /** The notices the forwarder posts to Saved Messages ("me") about one source message. */
  datatype Notice =
    | NotFound(message: int)
    | Unsupported(message: int)
    | NoContent(message: int)
    | Failed(message: int, name: string, detail: string)

  /** The replies a command handler posts under the operator's command. */
  datatype ReplyKind =
    | ForwardUsage
    | BatchUsage
    | Verbatim(text: string)          // `str(e)` of a ValueError
    | Starting(message: int)
    | Done
    | ForwardError(detail: string)
    | SameChannelRequired
    | BatchStarting(first: int, last: int)
    | BatchFinished(processed: nat)
    | BatchError(detail: string)

  datatype Action =
    | Fetch(chat: int, message: int)                   // client.get_messages
    | SendText(text: string, replyTo: Option<int>)     // client.send_message relaying text
    | Download                                         // client.download_media
    | SendVideo(path: string, caption: string)
    | SendDocument(path: string, caption: string)
    | SendPhoto(path: string, caption: string)
    | Note(notice: Notice)                             // client.send_message reporting on a message
    | Remove(path: string)                             // os.remove of the downloaded file
    | Backoff(seconds: nat)                            // asyncio.sleep after a FloodWait
    | Pace(tenths: nat)                                // asyncio.sleep between batch messages, in tenths of a second
    | Reply(reply: ReplyKind)                          // message.reply to the command

  function NoticeText(n: Notice): string
  {
    match n
    case NotFound(id) => "Message " + Numerals.IntToString(id) + " not found or inaccessible"
    case Unsupported(id) => "Skipped " + Numerals.IntToString(id) + " - unsupported media type"
    case NoContent(id) => "Skipped " + Numerals.IntToString(id) + " - no content"
    case Failed(id, name, detail) => "Error processing " + Numerals.IntToString(id) + ": " + name + " - " + detail
  }

  function ReplyText(r: ReplyKind): string
  {
    match r
    case ForwardUsage => "Usage:\n/forward https://t.me/c/xxxxxx/123"
    case BatchUsage => "Usage:\n/batch https://t.me/c/xxxx/100 https://t.me/c/xxxx/150"
    case Verbatim(text) => text
    case Starting(id) => "Starting single forward \U{2192} " + Numerals.IntToString(id)
    case Done => "\U{2713} Done"
    case ForwardError(detail) => "Error: " + detail
    case SameChannelRequired => "Both links must be from the same channel"
    case BatchStarting(first, last) =>
      "Batch processing " + Numerals.IntToString(first) + " \U{2192} " + Numerals.IntToString(last) + " (may take time)"
    case BatchFinished(n) => "Batch finished \U{2022} " + Numerals.IntToString(n) + " messages processed"
    case BatchError(detail) => "Batch error: " + detail
  }

  predicate IsRelay(a: Action) {
    a.SendText? || a.SendVideo? || a.SendDocument? || a.SendPhoto?
  }

  predicate IsUpload(a: Action) {
    a.SendVideo? || a.SendDocument? || a.SendPhoto?
  }

  predicate IsDownload(a: Action) { a.Download? }

  predicate IsRemove(a: Action) { a.Remove? }

  predicate IsBackoff(a: Action) { a.Backoff? }

  predicate IsFailureNote(a: Action) { a.Note? && a.notice.Failed? }

  predicate IsFetch(a: Action) { a.Fetch? }

  /** How many actions of the trace satisfy `p`. */
  function Count(t: seq<Action>, p: Action -> bool): (n: nat)
    ensures n <= |t|
  {
    if |t| == 0 then 0 else Count(t[..|t| - 1], p) + (if p(t[|t| - 1]) then 1 else 0)
  }

  /** No action satisfies `p`: the count is zero. */
  lemma {:induction false} CountNone(t: seq<Action>, p: Action -> bool)
    requires forall i :: 0 <= i < |t| ==> !p(t[i])
    ensures Count(t, p) == 0
    decreases |t|
  {
    if |t| > 0 {
      CountNone(t[..|t| - 1], p);
    }
  }

  /** Only the last action may satisfy `p`. */
  lemma CountAtEnd(t: seq<Action>, p: Action -> bool)
    requires |t| >= 1
    requires forall i :: 0 <= i < |t| - 1 ==> !p(t[i])
    ensures Count(t, p) == (if p(t[|t| - 1]) then 1 else 0)
  {
    CountNone(t[..|t| - 1], p);
  }

  /** Exactly one action, the one at `k`, satisfies `p`. */
  lemma {:induction false} CountExactlyOne(t: seq<Action>, p: Action -> bool, k: nat)
    requires k < |t| && p(t[k])
    requires forall i :: 0 <= i < |t| && i != k ==> !p(t[i])
    ensures Count(t, p) == 1
    decreases |t|
  {
    if k == |t| - 1 {
      CountNone(t[..|t| - 1], p);
    } else {
      CountExactlyOne(t[..|t| - 1], p, k);
    }
  }

  /** The message ids fetched, in order. */
  function FetchedIds(t: seq<Action>): seq<int>
  {
    if |t| == 0 then []
    else FetchedIds(t[..|t| - 1]) + (if t[|t| - 1].Fetch? then [t[|t| - 1].message] else [])
  }

  /** One id per fetch. */
  lemma {:induction false} FetchedIdsCount(t: seq<Action>)
    ensures |FetchedIds(t)| == Count(t, IsFetch)
    decreases |t|
  {
    if |t| > 0 {
      FetchedIdsCount(t[..|t| - 1]);
    }
  }

  lemma {:induction false} FetchedIdsNone(t: seq<Action>)
    requires forall i :: 0 <= i < |t| ==> !t[i].Fetch?
    ensures FetchedIds(t) == []
    decreases |t|
  {
    if |t| > 0 {
      FetchedIdsNone(t[..|t| - 1]);
    }
  }

  lemma {:induction false} FetchedIdsAppend(t: seq<Action>, u: seq<Action>)
    ensures FetchedIds(t + u) == FetchedIds(t) + FetchedIds(u)
    decreases |u|
  {
    if |u| == 0 {
      assert t + u == t;
    } else {
      assert (t + u)[..|t + u| - 1] == t + u[..|u| - 1];
      FetchedIdsAppend(t, u[..|u| - 1]);
    }
  }

  /** The pacing delay of the trace, in tenths of a second. */
  function PaceTotal(t: seq<Action>): nat
  {
    if |t| == 0 then 0
    else PaceTotal(t[..|t| - 1]) + (if t[|t| - 1].Pace? then t[|t| - 1].tenths else 0)
  }

  lemma {:induction false} PaceTotalNone(t: seq<Action>)
    requires forall i :: 0 <= i < |t| ==> !t[i].Pace?
    ensures PaceTotal(t) == 0
    decreases |t|
  {
    if |t| > 0 {
      PaceTotalNone(t[..|t| - 1]);
    }
  }

  lemma {:induction false} PaceTotalAppend(t: seq<Action>, u: seq<Action>)
    ensures PaceTotal(t + u) == PaceTotal(t) + PaceTotal(u)
    decreases |u|
  {
    if |u| == 0 {
      assert t + u == t;
    } else {
      assert (t + u)[..|t + u| - 1] == t + u[..|u| - 1];
      PaceTotalAppend(t, u[..|u| - 1]);
    }
  }
}
